=== FILE: README.md ===
# Rideshare assistant core, modelled in Dafny

This project models the deterministic core of a rideshare data assistant. The assistant answers questions about group rides in Austin. The project covers three parts:

- **The intent router** (`gpt_router.py`). It builds the chat request for a question and its history. It asks the model with retries and exponential backoff. It turns the reply into a routing decision: a call of a registered analysis function or a natural-language answer. It caches that decision under a key made from the normalised question and the history length. It also converts the function registry into function-calling schemas.
- **The function catalog** (`function_registry.py`). This is the registry of nine analysis functions with their parameters, example calls and example questions. Next to it is the table of implementation names. From it two views are derived: the parameter lists and the description blocks.
- **The query engine** (`query_engine.py`). It derives three columns while loading: the age band, the weekend flag and the simplified drop-off name. It runs the counting queries: top drop-offs by age group and day, peak hours for large groups, least busy drop-offs on a day, trips to a location over time, age distribution at a location, and busiest hours at a location. It also has a rule-based shortcut that summarises a result table in one fixed sentence.

The model is pure: immutable datatypes and functions over sequences and maps.

- A data frame is a sequence of rider rows, `Trips.Trip`.
- `groupby(...).size()`, `sort_values` and `head` are functions over sequences of `(key, count)` groups.
- The router's cache is a map that goes into `Router.Route` and comes back out.
- The language model is a parameter, `Router.ModelService`. It gives the result of attempt `i` of a request and an oracle for `json.loads`.

Modules:

| file | module | what it holds |
|---|---|---|
| `options.dfy` | `Options` | `Option` |
| `text.dfy` | `Text` | Python's `lower`, `strip` and `split(",")[0]`, substring search, decimal digits |
| `aggregate.dfy` | `Aggregate` | group counting, sorting, filtering and `head` over grouped tables |
| `catalog.dfy` | `Catalog` | the registry, the implementation table and their derived views |
| `router.dfy` | `Router` | schemas, retry with backoff, messages, decisions, the cache key and the router |
| `trips.dfy` | `Trips` | rider rows, age bands, the weekend flag and the drop-off simplification |
| `queries.dfy` | `Queries` | row selections and the counting queries |
| `defaults.dfy` | `Defaults` | the queries' default arguments and what the registry's parameter texts say about them |
| `summary.dfy` | `Summary` | the rule-based part of `natural_summary` |

Notes on the code's behaviour:

- The missing-client check runs before the cache lookup, and its answer is not cached (`gpt_router.py:96-106`).
- `_retry_call` also sleeps after the last failed attempt, before it re-raises (`gpt_router.py:64-73`).
- `get_openai_functions` lists every parameter as required, including those the registry calls optional (`gpt_router.py:41`).
- The cache key lower-cases first and strips afterwards. `Text.LowerStripCommute` shows that the order does not matter.

## Model

| member | source | states |
|---|---|---|
| Text.StripUnique | gpt_router.py:104 | `strip` has exactly one answer: a string framed by white space on both sides strips to the middle part, when that part has no white space at either end |
| Text.Strip | gpt_router.py:104 | `strip` leaves no white space at either end and never lengthens the text |
| Text.StripIdempotent | query_engine.py:46 | stripping twice is the same as stripping once |
| Text.LowerStripCommute | gpt_router.py:104 | lower-casing and stripping commute, so `q.lower().strip()` equals `q.strip().lower()` |
| Text.Lower | query_engine.py:96 | `lower` keeps the length and lower-cases each ASCII capital, leaving every other character as it is |
| Text.NatToString | gpt_router.py:104 | the history length is written as at least one decimal digit, and the digits read back as the number |
| Text.NatToStringInjective | gpt_router.py:104 | different lengths are written differently |
| Trips.Truncate | query_engine.py:35 | `int(age)` rounds toward zero: the result is within one of the age, on the side of zero |
| Trips.AgeBucket | query_engine.py:33-41 | the band is one of the seven labels, and it is "Unknown" exactly when the age is missing |
| Trips.AgeBucketRanges | query_engine.py:33-41 | for a present age, each band holds exactly one half-open interval of real ages: below 18, [18, 25), [25, 35), [35, 45), [45, 55), 55 and above |
| Trips.IsWeekend | query_engine.py:30 | the weekend flag is set exactly when the day is one of the last two day names; a missing day is not a weekend day |
| Trips.WeekendDays | query_engine.py:29-30 | of the seven names `day_name()` gives, the weekend flag is set for exactly the last two, Saturday and Sunday |
| Trips.DropoffSimple | query_engine.py:46 | the simplified drop-off name contains no comma and has no white space at either end |
| Trips.DropoffSimpleSplit | query_engine.py:46 | everything from the first comma on is ignored, and the text before it is stripped |
| Trips.DropoffSimpleIdempotent | query_engine.py:46 | simplifying a simplified name changes nothing |
| Aggregate.GroupCount | query_engine.py:57-58 | `groupby(key).size()`: one group per distinct key; each count is the key's number of occurrences and at least one; a key has a group exactly when it occurs; the counts add up to the number of rows |
| Aggregate.SortBy | query_engine.py:59 | `sort_values`: the result is ordered by the rank and is a permutation of the input |
| Aggregate.SortByTotal | query_engine.py:59 | sorting keeps the sum of the counts |
| Aggregate.SortByDistinct | query_engine.py:59 | sorting keeps keys distinct |
| Aggregate.AtLeast | query_engine.py:167 | the boolean mask keeps exactly the groups with at least the given count |
| Aggregate.AtLeastSorted | query_engine.py:163-167 | filtering a sorted table leaves it sorted |
| Aggregate.Head | query_engine.py:60 | `head(n)` is a prefix: the first `n` rows, or for negative `n` all but the last `-n` |
| Aggregate.HeadDominates | query_engine.py:59-60 | in a sorted table, a row that `head` drops ranks at least as high as every row it keeps |
| Queries.Select | query_engine.py:53-55 | the boolean mask keeps exactly the rows the selection accepts, and as many as it counts |
| Queries.Keeps | query_engine.py:53-55 | a day of `None` or "" does not restrict the age-group filter; a row whose trip is missing (NaN weekday or party size) never passes a day filter or the group-size filter |
| Queries.OccurrencesSelected | query_engine.py:53-58 | counting a key among the selected rows equals counting the rows that are selected and carry that key |
| Queries.CountBy | query_engine.py:57-58 | grouping the selected rows: distinct keys, each count the exact number of selected rows with the key, a key present exactly when such a row exists, total equal to the number of selected rows whose key is not missing |
| Queries.KeyedAtMost | query_engine.py:57-58 | `groupby` counts no more rows than were selected |
| Queries.KeyedAll | query_engine.py:57-58 | when every row has a key, `groupby` counts every selected row |
| Queries.RankedDropoffs | query_engine.py:53-59 | drop-offs for the age group, and for the day when one is given, with exact counts, most visited first |
| Queries.TopDropoffs | query_engine.py:52-62 | `top_dropoffs_by_age_group_and_day`: the leading rows of the ranking, exactly `top_k` of them or all when there are fewer (for negative `top_k`, all but the last `-top_k`), counts non-increasing, distinct names, each count the exact number of matching rows |
| Queries.TopDropoffsAreTop | query_engine.py:56-61 | a drop-off that matches but was left out means the list holds `top_k` drop-offs, each visited at least as often |
| Queries.PeakHours | query_engine.py:74-81 | `peak_hours_for_large_groups`: hours strictly increasing; each count is the exact number of rows with at least `min_group_size` passengers in that hour; an hour is listed exactly when it has such a row; counts add up to the number of such rows that have an hour, which is all of them when every row has a trip time |
| Queries.LargeGroupsCounted | query_engine.py:75 | the rows counted are exactly the rows whose party size is at least `min_group_size` |
| Queries.DayCounts | query_engine.py:158-164 | the day's drop-offs with exact counts, distinct, least visited first, listing every drop-off visited that day |
| Queries.QualifyingDropoffs | query_engine.py:167 | after the `min_trips` cut: every count at least `min_trips`, still exact, ascending and distinct |
| Queries.QualifyingHas | query_engine.py:167 | every drop-off visited at least `min_trips` times that day survives the cut |
| Queries.LeastBusy | query_engine.py:156-170 | `least_busy_locations_by_day`: at most ten rows, each with at least `min_trips` trips on the day and its exact count, least visited first, distinct names |
| Defaults.DefaultsDocumented | function_registry.py:14-92 | the registry's parameter texts tell the truth about the Python defaults of `query_engine.py:52`, `:74` and `:156`: "default=5" appears exactly on `top_k` and `min_trips`, whose defaults are 5; any default a text promises is the query's own; the only default left unpromised is `min_group_size`'s (6), which the text calls required |
| Queries.LeastBusyAreLeast | query_engine.py:167-170 | a drop-off with enough trips is left out only when the list is full of ten drop-offs visited no more often |
| Queries.TripsToLocation | query_engine.py:95-104 | `trips_to_specific_location`: calendar days strictly increasing, exact counts of matching rows per day, a day listed exactly when some matching row falls on it, counts adding up to the matching rows that have a date, which is all of them when every row has a trip time |
| Queries.AgeDistribution | query_engine.py:118-126 | `age_distribution_at_location`: age bands with exact counts at matching drop-offs, most common first; every key is one of the seven bands; a band is listed exactly when some matching row has it; counts add up to the matching rows |
| Queries.BusiestHours | query_engine.py:182-190 | `busiest_hours_by_location`: hours with exact counts at matching drop-offs, busiest first, every such hour listed, counts adding up to the matching rows that have an hour, which is all of them when every row has a trip time |
| Queries.LocationIgnoresCase | query_engine.py:96 | the location filter gives the same answer for a query and its lower-cased form |
| Queries.LocationMatchesOwnName | query_engine.py:96 | an empty query keeps every row, and a row's own drop-off name always finds it |
| Catalog.RegistryInvariants | function_registry.py:9-154 | the registry has nine entries with distinct keys; each entry's name equals its key; parameter names within an entry are distinct; each example call calls its own entry with declared parameters only; the implementation table has the same keys in the same order |
| Catalog.ImplementationKeys | function_registry.py:143-154 | the implementation table's keys are the registry's keys, in the same order and without repeats |
| Catalog.ExampleDeclared | function_registry.py:9-140 | each example call names its own entry, and each argument it passes is a declared parameter |
| Catalog.Lookup | gpt_router.py:166 | looking a name up finds an entry exactly when the name is registered, and what it finds is that name's own entry in the registry |
| Catalog.RegisteredNames | gpt_router.py:166 | a name is registered exactly when it is among the registry's key set, the set the router checks |
| Catalog.DescriptionsOf | function_registry.py:156-169 | one description block per entry, in registry order, with the entry's name, purpose, description, example call and all its parameters, and its first two example questions, or all of them when there are fewer |
| Catalog.DescriptionsCoverRegistry | function_registry.py:156-169 | the blocks name every registered function and nothing else, each exactly once |
| Catalog.SignaturesOf | function_registry.py:171-176 | the signature view maps exactly the registry's names, each to its parameter names in declaration order |
| Catalog.SignatureView | function_registry.py:171-176 | for the registry itself, the view's keys are exactly the registered names |
| Router.InferType | gpt_router.py:30-35 | a parameter is typed "integer" exactly when its description lacks "str" and contains "int"; otherwise it is "string" |
| Router.SchemasOf | gpt_router.py:19-55 | one schema per registry entry, in order, with the entry's name and description, one property per parameter in order (name, description and inferred type), and all parameters listed as required |
| Router.AllParametersRequired | gpt_router.py:28-41 | a name is in `required` exactly when it is one of the schema's properties, optional or not |
| Router.StandardOffersRegistered | gpt_router.py:19-55 | the offered schemas correspond one to one with the registry: a name is registered exactly when some schema carries it |
| Router.RetryCall | gpt_router.py:61-73 | at most `max_retries` calls; a value is returned exactly when one of the first `max_retries` calls succeeds, and it is the first success; all earlier calls failed; when every call fails, the last error is re-raised; with no attempts allowed, `None` comes back |
| Router.RetryFrom | gpt_router.py:64-73 | the loop from attempt `i` on, given that the earlier attempts failed: it stays within the attempt bound, and each outcome states which calls failed |
| Router.SleepLowerBound | gpt_router.py:69-71 | after `k` failures the backoff sleeps add up to at least `base_delay * (2^k - 1)` |
| Router.SleepUpperBound | gpt_router.py:69-71 | after `k` failures the backoff sleeps add up to at most `base_delay * (2^k - 1) + 0.2 * k` |
| Router.RetryTwoFailuresThenSuccess | gpt_router.py:61-73 | two failures and then a success: the third call's value comes back after three calls and two sleeps, which add up to at least `3 * base_delay` |
| Router.Window | gpt_router.py:136 | `history[-6:]`: the last six entries, or all of them when there are fewer |
| Router.PairMessages | gpt_router.py:136-139 | each kept exchange becomes a user message and then an assistant message, in order |
| Router.BuildMessages | gpt_router.py:113-142 | the system prompt comes first and the question last as a user message; in between, each well-formed pair among the last six entries appears in order; the length is 2 plus twice the number of such pairs |
| Router.StructuredError | gpt_router.py:76-89 | a natural response with no function, no parameters, confidence 0.1, the message as its thought and the fallback text as its response; well formed whenever the fallback text is non-empty |
| Router.CallDecision | gpt_router.py:166-181 | a registered function chosen by the model gives a well-shaped function call naming it with the parsed arguments |
| Router.NaturalDecision | gpt_router.py:183-198 | any other reply gives a well-shaped natural response at confidence 0.8 showing the reply's text when there is one |
| Router.Interpret | gpt_router.py:154-206 | whatever the model does, the decision is well formed, and any function it names is registered |
| Router.FreshDecision | gpt_router.py:108-206 | the decision made on a cache miss is well formed |
| Router.CacheKey | gpt_router.py:104 | the cache key splits back into the lower-cased, stripped question and the history length |
| Router.CacheKeyInjective | gpt_router.py:104 | two questions share a key exactly when they agree after lower-casing and stripping and their histories have the same length |
| Router.CacheKeyNormalises | gpt_router.py:104 | outer white space and letter case of the question do not change the key |
| Router.Route | gpt_router.py:92-206 | without a client, the fixed error comes back and the cache is untouched; otherwise the decision is what the cache then holds under the key, the cache gains at most that key, and no other entry changes |
| Router.RouteKeepsCacheWellFormed | gpt_router.py:105-206 | a cache of well-formed decisions stays well formed, and the decision returned is well formed |
| Router.RouteWithoutClient | gpt_router.py:96-101 | with no client: a 0.1-confidence natural response with no function and no parameters, whatever is cached, and the cache is unchanged |
| Router.RouteCacheHit | gpt_router.py:105-106 | a cached key returns the stored decision, leaves the cache alone and does not depend on the model |
| Router.RouteIdempotent | gpt_router.py:104-106 | asking again returns the first decision and leaves the cache as it is, even with different case or outer white space, another history of the same length, or a model that would now answer differently |
| Router.RouteMiss | gpt_router.py:108-206 | an uncached key gets the decision made from the model's reply, stored under the key |
| Router.RouteSelectsRegistered | gpt_router.py:158-181 | a registered function chosen by the model gives a 0.9-confidence function call with the parsed arguments, or `{}` when they do not parse; it is cached |
| Router.RouteNaturalResponse | gpt_router.py:166-198 | an unregistered name, or no function call, gives a 0.8-confidence natural response with the model's text, or the greeting when there is none; it is cached |
| Router.RouteRetriesExhausted | gpt_router.py:144-206 | when every attempt raises, the last error becomes a 0.1-confidence error decision, and it is cached |
| Router.RouteExceptionsCached | gpt_router.py:154-206 | any exception in the `try` block gives a 0.1-confidence natural-response decision carrying the exception's text: the last error when every retry raised, "list index out of range" when the reply has no choices; the decision is cached under the key |
| Summary.ColumnIndex | query_engine.py:330-332 | a column is found exactly when the table has that label, and the position found is its first occurrence |
| Summary.FirstMax | query_engine.py:339 | `idxmax`: the row found has the largest value, and every earlier row has a strictly smaller one |
| Summary.FormatHour | query_engine.py:340 | every hour of the day is written as a plain numeral followed by ":00", ":00 PM" from noon on, so that it reads back as itself; with `Summary.ReadHourInjective` this fixes the text exactly |
| Summary.ReadHourInjective | query_engine.py:340 | no two texts read as the same hour: a numeral has no leading zero and the afternoon numerals run from 1 to 12, so the written hour is the only text for it |
| Summary.FormatHourInjective | query_engine.py:340 | two hours of the day are written alike exactly when they are equal |
| Summary.NaturalSummary | query_engine.py:316-349 | no client gives the fixed "not available" text; otherwise an empty table gives "No data found for this query."; otherwise the model is asked exactly when there is no `trip_count` column or the context mentions none of the five words |
| Summary.TripCountRules | query_engine.py:330-349 | the model is asked exactly when the context mentions none of "dropoff", "peak", "trip", "age" and "group"; otherwise the first of them the context mentions, in that order, picks the drop-off sentence, the peak rule, the trip sentence, the age rule or the group rule |
| Summary.FirstMentionedUnique | query_engine.py:336-349 | a context that mentions some word has exactly one first word, so exactly one rule applies |
| Summary.TopLocation | query_engine.py:332 | the first row's `dropoff_simple` cell, or its first cell when that column is missing |
| Summary.PeakRule | query_engine.py:338-341 | it raises exactly when `trip_count` is not all numbers, there is no `hour` column, or the hour of the `idxmax` row is text; otherwise the sentence names the hour of the first row with the most trips, formatted as a time of day |
| Summary.MaxRowUnique | query_engine.py:339 | `idxmax` names a single row: the first with the largest value |
| Summary.MaxRowOf | query_engine.py:339 | for a numeric column, the row found is where `idxmax` lands: no row holds more, and no earlier row holds as much |
| Summary.AgeRule | query_engine.py:344-346 | it raises exactly when there is no `age_group` column; otherwise the sentence names the first row's age band |
| Summary.GroupRule | query_engine.py:347-349 | it raises exactly when there is no `mean` column, the means are not all numbers, or there is no `day_of_week` column; otherwise the sentence names the day of the first row with the largest mean |
| Summary.SummaryIgnoresCase | query_engine.py:336-347 | the context is matched without regard to case |

## Left out

- The OpenAI client and its network calls (`gpt_router.py:144-154`) are a parameter, `Router.ModelService`. The model-written summaries (`query_engine.py:351-381`) and `friendly_response` are not modelled. `Summary.NaturalSummary` reports `ModelSummary` where the model would be asked.
- Router.SleepLowerBound: `time.sleep` and `random.uniform` have no effect in the model. The sleeps are ghost values built from a jitter function, and the bounds (here and in Router.SleepUpperBound) hold for any jitter within `[0, 0.2]`.
- `load_and_prepare_data` is left out: reading the workbook, the merges and timestamp parsing. A `Trips.Trip` row carries their results: age, weekday name, hour, calendar day and party size, each missing where the left merge found no trip. A float hour column (the result of NaN hours) is not modelled: hours are integers.
- Charts (matplotlib and seaborn) are left out. Each query returns only its table.
- `group_size_by_day_of_week`, `weekend_vs_weekday_patterns` and `quietest_day_overall` are left out. They compute float means, medians and modes, and `reindex` fills gaps with NaN. They appear here only as registry entries.
- `streamlit_app.py` is left out. It is the user interface and its session state.
- Default arguments: the query functions take every argument explicitly, because the caller that leaves arguments out is in `streamlit_app.py`. `Defaults.IntDefault` records the Python defaults (`top_k = 5`, `min_group_size = 6`, `min_trips = 5`), a missing `day` is `None`, and `Defaults.DefaultsDocumented` ties the defaults to the registry's text.
- Queries.Keeps: `str.contains` treats the query as a regular expression. The model matches it as a plain substring, which agrees for queries without regex metacharacters.
- Text.Lower: case folding covers ASCII letters only. Python's `str.lower` also folds other alphabets.
- Aggregate.GroupCount: returns the groups in the order their keys are first seen, while pandas' `groupby(...).size()` sorts them by key. Every query sorts the groups again, so only the order of tied rows can differ, and no contract depends on it.
- Aggregate.SortBy: pandas' default sort is not stable. The model sorts stably, and no contract depends on the order of tied rows.
- Queries.AgeDistribution: models the column naming of pandas before version 2. There `value_counts().reset_index()` yields `index` and `age_group`, and the rename turns them into `age_group` and `count`. Under pandas 2 the rename gives two `count` columns, and the sort then fails.
- Summary.NaturalSummary: a `trip_count` column that does not hold numbers raises in the "peak" rule only. In the source, the sum at `query_engine.py:331` runs before any rule is chosen, so a column mixing text and numbers raises a `TypeError` in every branch; the model does not compute that sum and so does not raise there. Duplicate column labels are not modelled. A float cell is shown through a formatting function given as a parameter.
- Router.Route: the configuration (system prompt, offered schemas, registered names) is a `Router.Config` parameter. `Router.Standard` holds the module's own values, and `Router.StandardOffersRegistered` ties its schemas to the registry.
- Router.Interpret: `json.loads` is an oracle that returns `None` where Python raises. The parsed value is the concrete datatype `Router.Json`, whose numbers are integers only, so JSON floats are not told apart from integers. Routing never looks inside the arguments value; it only passes it on.
- `example_usage` strings are modelled as structured calls (callee and argument pairs), not as text. `get_function_descriptions` is modelled as a sequence of blocks before they are joined into one string.

=== FILE: aggregate.dfy ===
/** The table operations the query engine builds on, stated over sequences:
    pandas' `groupby(key).size()`, `sort_values(...)`, filtering rows of a
    grouped table, and `head(n)`. */
module Aggregate {

  /** One row of a grouped count: a key and the number of rows it had. */
  datatype Group<K> = Group(key: K, count: nat)

  /** Number of times `k` occurs in `ks`. */
  function Occurrences<K(==)>(ks: seq<K>, k: K): nat {
    if |ks| == 0 then 0
    else Occurrences(ks[..|ks| - 1], k) + (if ks[|ks| - 1] == k then 1 else 0)
  }

  lemma {:induction false} OccurrencesPositive<K>(ks: seq<K>, k: K)
    ensures Occurrences(ks, k) > 0 <==> k in ks
  {
    if |ks| > 0 {
      OccurrencesPositive(ks[..|ks| - 1], k);
      assert ks == ks[..|ks| - 1] + [ks[|ks| - 1]];
    }
  }

  function Keys<K>(gs: seq<Group<K>>): (ks: seq<K>)
    ensures |ks| == |gs|
    ensures forall i :: 0 <= i < |gs| ==> ks[i] == gs[i].key
  {
    seq(|gs|, i requires 0 <= i < |gs| => gs[i].key)
  }

  predicate DistinctKeys<K(==)>(gs: seq<Group<K>>) {
    forall i, j :: 0 <= i < j < |gs| ==> gs[i].key != gs[j].key
  }

  /** Sum of the counts of a grouped table. */
  function Total<K>(gs: seq<Group<K>>): nat {
    if |gs| == 0 then 0 else gs[0].count + Total(gs[1..])
  }

  lemma {:induction false} TotalAppend<K>(a: seq<Group<K>>, b: seq<Group<K>>)
    ensures Total(a + b) == Total(a) + Total(b)
  {
    if |a| > 0 {
      assert (a + b)[1..] == a[1..] + b;
      TotalAppend(a[1..], b);
    } else {
      assert a + b == b;
    }
  }

  lemma {:induction false} TotalBump<K>(gs: seq<Group<K>>, p: nat, g: Group<K>)
    requires p < |gs| && g.count == gs[p].count + 1
    ensures Total(gs[p := g]) == Total(gs) + 1
  {
    if p > 0 {
      assert gs[p := g][1..] == gs[1..][p - 1 := g];
      TotalBump(gs[1..], p - 1, g);
    } else {
      assert gs[p := g][1..] == gs[1..];
    }
  }

  /** Position of the group with key `k`, or -1. */
  function Find<K(==)>(gs: seq<Group<K>>, k: K): (p: int)
    ensures -1 <= p < |gs|
    ensures p >= 0 ==> gs[p].key == k
    ensures p < 0 ==> k !in Keys(gs)
  {
    if |gs| == 0 then -1
    else if gs[|gs| - 1].key == k then |gs| - 1
    else
      var p := Find(gs[..|gs| - 1], k);
      assert Keys(gs) == Keys(gs[..|gs| - 1]) + [gs[|gs| - 1].key];
      p
  }

  /** Counts one more row with key `k`: the existing group grows, or a new
      group is appended. */
  function Bump<K(==)>(gs: seq<Group<K>>, k: K): seq<Group<K>> {
    var p := Find(gs, k);
    if p >= 0 then gs[p := Group(k, gs[p].count + 1)] else gs + [Group(k, 1)]
  }

  /** The groups count the rows with each key exactly. */
  predicate CountsOccurrences<K(==)>(ks: seq<K>, gs: seq<Group<K>>) {
    forall i :: 0 <= i < |gs| ==> gs[i].count == Occurrences(ks, gs[i].key) >= 1
  }

  /** The group keys are exactly the keys that occur. */
  ghost predicate KeysExactly<K(!new)>(ks: seq<K>, gs: seq<Group<K>>) {
    forall k :: k in ks <==> k in Keys(gs)
  }

  lemma OccurrencesSnoc<K>(ks: seq<K>, k: K, x: K)
    ensures Occurrences(ks + [k], x) == Occurrences(ks, x) + (if k == x then 1 else 0)
  {
    assert (ks + [k])[..|ks|] == ks;
  }

  lemma BumpDistinct<K>(gs: seq<Group<K>>, k: K)
    requires DistinctKeys(gs)
    ensures DistinctKeys(Bump(gs, k))
  {
    var p := Find(gs, k);
    if p < 0 {
      var r := gs + [Group(k, 1)];
      forall i | 0 <= i < |gs| ensures gs[i].key != k {
        assert Keys(gs)[i] == gs[i].key;
      }
      assert forall i, j :: 0 <= i < j < |r| ==> r[i].key != r[j].key;
    }
  }

  lemma BumpKeys<K(!new)>(ks: seq<K>, gs: seq<Group<K>>, k: K)
    requires KeysExactly(ks, gs)
    ensures KeysExactly(ks + [k], Bump(gs, k))
  {
    var p := Find(gs, k);
    if p >= 0 {
      assert Keys(Bump(gs, k)) == Keys(gs);
    } else {
      assert Keys(Bump(gs, k)) == Keys(gs) + [k];
    }
  }

  lemma BumpTotal<K>(gs: seq<Group<K>>, k: K)
    ensures Total(Bump(gs, k)) == Total(gs) + 1
  {
    var p := Find(gs, k);
    if p >= 0 {
      TotalBump(gs, p, Group(k, gs[p].count + 1));
    } else {
      TotalAppend(gs, [Group(k, 1)]);
    }
  }

  lemma BumpCounts<K(!new)>(ks: seq<K>, gs: seq<Group<K>>, k: K)
    requires DistinctKeys(gs) && KeysExactly(ks, gs) && CountsOccurrences(ks, gs)
    ensures CountsOccurrences(ks + [k], Bump(gs, k))
  {
    var p := Find(gs, k);
    var r := Bump(gs, k);
    forall i | 0 <= i < |r| ensures r[i].count == Occurrences(ks + [k], r[i].key) >= 1 {
      OccurrencesSnoc(ks, k, r[i].key);
      if p < 0 && i == |gs| {
        OccurrencesPositive(ks, k);
      }
    }
  }

  /** pandas' `groupby(key).size()` over the keys of the rows: one group per
      distinct key, counting exactly the rows with that key, and the counts
      adding up to the number of rows. The groups come out in first-seen
      order, where pandas sorts them by key; every query sorts the groups
      again (by key or by count, ties left open), so only that later order
      is part of a query's contract. */
  function GroupCount<K(==,!new)>(ks: seq<K>): (gs: seq<Group<K>>)
    ensures DistinctKeys(gs)
    ensures forall i :: 0 <= i < |gs| ==> gs[i].count == Occurrences(ks, gs[i].key) >= 1
    ensures forall k :: k in ks <==> k in Keys(gs)
    ensures Total(gs) == |ks|
  {
    if |ks| == 0 then []
    else
      var init, k := ks[..|ks| - 1], ks[|ks| - 1];
      var prev := GroupCount(init);
      assert CountsOccurrences(init, prev) && KeysExactly(init, prev);
      BumpDistinct(prev, k);
      BumpKeys(init, prev, k);
      BumpTotal(prev, k);
      BumpCounts(init, prev, k);
      assert ks == init + [k];
      Bump(prev, k)
  }

  /** `rank` never decreases along `gs`. */
  predicate SortedBy<K>(gs: seq<Group<K>>, rank: Group<K> -> int) {
    forall i, j :: 0 <= i < j < |gs| ==> rank(gs[i]) <= rank(gs[j])
  }

  function Insert<K>(g: Group<K>, gs: seq<Group<K>>, rank: Group<K> -> int): (r: seq<Group<K>>)
    requires SortedBy(gs, rank)
    ensures SortedBy(r, rank)
    ensures multiset(r) == multiset(gs) + multiset{g}
  {
    if |gs| == 0 then [g]
    else if rank(g) <= rank(gs[0]) then [g] + gs
    else
      var rest := Insert(g, gs[1..], rank);
      assert gs == [gs[0]] + gs[1..];
      LeastOfInsert(g, gs, rank, rest);
      [gs[0]] + rest
  }

  lemma LeastOfInsert<K>(g: Group<K>, gs: seq<Group<K>>, rank: Group<K> -> int, rest: seq<Group<K>>)
    requires |gs| > 0 && SortedBy(gs, rank) && rank(gs[0]) < rank(g)
    requires multiset(rest) == multiset(gs[1..]) + multiset{g}
    ensures forall x :: x in rest ==> rank(gs[0]) <= rank(x)
  {
    forall x | x in rest ensures rank(gs[0]) <= rank(x) {
      assert x in multiset(rest);
      if x != g {
        assert x in gs[1..];
      }
    }
  }

  lemma {:induction false} InsertTotal<K>(g: Group<K>, gs: seq<Group<K>>, rank: Group<K> -> int)
    requires SortedBy(gs, rank)
    ensures Total(Insert(g, gs, rank)) == Total(gs) + g.count
  {
    if |gs| > 0 && rank(g) > rank(gs[0]) {
      InsertTotal(g, gs[1..], rank);
    }
  }

  lemma {:induction false} InsertDistinct<K>(g: Group<K>, gs: seq<Group<K>>, rank: Group<K> -> int)
    requires SortedBy(gs, rank) && DistinctKeys(gs)
    requires forall x :: x in gs ==> x.key != g.key
    ensures DistinctKeys(Insert(g, gs, rank))
  {
    if |gs| > 0 && rank(g) > rank(gs[0]) {
      InsertDistinct(g, gs[1..], rank);
      var rest := Insert(g, gs[1..], rank);
      assert gs == [gs[0]] + gs[1..];
      forall x | x in rest ensures x.key != gs[0].key {
        assert x in multiset(rest);
      }
    }
  }

  /** pandas' `sort_values` on a grouped table, ordering by `rank`: the same
      groups, rearranged so that `rank` never decreases. */
  function SortBy<K>(gs: seq<Group<K>>, rank: Group<K> -> int): (r: seq<Group<K>>)
    ensures SortedBy(r, rank)
    ensures multiset(r) == multiset(gs)
  {
    if |gs| == 0 then []
    else
      assert gs == [gs[0]] + gs[1..];
      Insert(gs[0], SortBy(gs[1..], rank), rank)
  }

  /** Sorting keeps the number of groups. */
  lemma SortByLength<K>(gs: seq<Group<K>>, rank: Group<K> -> int)
    ensures |SortBy(gs, rank)| == |gs|
  {
    var r := SortBy(gs, rank);
    assert |r| == |multiset(r)| == |multiset(gs)| == |gs|;
  }

  /** Sorting keeps the total. */
  lemma {:induction false} SortByTotal<K>(gs: seq<Group<K>>, rank: Group<K> -> int)
    ensures Total(SortBy(gs, rank)) == Total(gs)
  {
    if |gs| > 0 {
      SortByTotal(gs[1..], rank);
      InsertTotal(gs[0], SortBy(gs[1..], rank), rank);
    }
  }

  /** Sorting keeps keys distinct. */
  lemma {:induction false} SortByDistinct<K>(gs: seq<Group<K>>, rank: Group<K> -> int)
    requires DistinctKeys(gs)
    ensures DistinctKeys(SortBy(gs, rank))
  {
    if |gs| > 0 {
      var rest := SortBy(gs[1..], rank);
      SortByDistinct(gs[1..], rank);
      forall x | x in rest ensures x.key != gs[0].key {
        assert x in multiset(rest);
        var j :| 0 <= j < |gs[1..]| && gs[1..][j] == x;
        assert gs[j + 1] == x;
      }
      InsertDistinct(gs[0], rest, rank);
    }
  }

  /** Keeps the groups with at least `m` rows, in order. */
  function AtLeast<K(==,!new)>(gs: seq<Group<K>>, m: int): (r: seq<Group<K>>)
    ensures forall g :: g in r <==> g in gs && g.count >= m
    ensures forall i :: 0 <= i < |r| ==> r[i].count >= m
  {
    if |gs| == 0 then []
    else
      var rest := AtLeast(gs[1..], m);
      assert gs == [gs[0]] + gs[1..];
      if gs[0].count >= m then [gs[0]] + rest else rest
  }

  /** Dropping groups keeps keys distinct. */
  lemma {:induction false} AtLeastDistinct<K(!new)>(gs: seq<Group<K>>, m: int)
    requires DistinctKeys(gs)
    ensures DistinctKeys(AtLeast(gs, m))
  {
    if |gs| > 0 {
      AtLeastDistinct(gs[1..], m);
      var rest := AtLeast(gs[1..], m);
      forall x | x in rest ensures x.key != gs[0].key {
        var j :| 0 <= j < |gs[1..]| && gs[1..][j] == x;
        assert gs[j + 1] == x;
      }
    }
  }

  /** A group with at least `m` rows keeps its key in the table. */
  lemma AtLeastKeeps<K(!new)>(gs: seq<Group<K>>, m: int, i: nat)
    requires i < |gs| && gs[i].count >= m
    ensures gs[i].key in Keys(AtLeast(gs, m))
  {
    var r := AtLeast(gs, m);
    assert gs[i] in r;
    var j :| 0 <= j < |r| && r[j] == gs[i];
    assert Keys(r)[j] == gs[i].key;
  }

  /** Dropping groups keeps the survivors in order. */
  lemma {:induction false} AtLeastSorted<K(!new)>(gs: seq<Group<K>>, m: int, rank: Group<K> -> int)
    requires SortedBy(gs, rank)
    ensures SortedBy(AtLeast(gs, m), rank)
  {
    if |gs| > 0 {
      AtLeastSorted(gs[1..], m, rank);
      assert gs == [gs[0]] + gs[1..];
      assert forall x :: x in gs[1..] ==> rank(gs[0]) <= rank(x);
    }
  }

  /** pandas' `head(n)`: the first `n` rows, or for negative `n` all rows but
      the last `-n`. */
  function Head<T>(s: seq<T>, n: int): (r: seq<T>)
    ensures n >= 0 ==> |r| == (if n < |s| then n else |s|)
    ensures n < 0 ==> |r| == (if |s| + n > 0 then |s| + n else 0)
    ensures r == s[..|r|]
  {
    if n >= 0 then (if n < |s| then s[..n] else s)
    else (if |s| + n > 0 then s[..|s| + n] else [])
  }

  /** Whatever `head` leaves out of a sorted table ranks at least as high
      as everything it keeps. */
  lemma HeadDominates<K>(s: seq<Group<K>>, n: int, rank: Group<K> -> int, g: Group<K>)
    requires SortedBy(s, rank)
    requires g in s && g !in Head(s, n)
    ensures forall x :: x in Head(s, n) ==> rank(x) <= rank(g)
  {
    var r := Head(s, n);
    var j :| 0 <= j < |s| && s[j] == g;
    assert j >= |r|;
    forall x | x in r ensures rank(x) <= rank(g) {
      var i :| 0 <= i < |r| && r[i] == x;
      assert s[i] == x;
    }
  }

  /** `head` drops a row only when it keeps `n` of them. */
  lemma HeadFull<T>(s: seq<T>, n: int, x: T)
    requires n >= 0 && x in s && x !in Head(s, n)
    ensures |Head(s, n)| == n
  {
  }
}

=== FILE: catalog.dfy ===
/** The static catalog of analytical functions (`FUNCTION_REGISTRY`), the
    table naming their implementations (`FUNCTION_IMPLEMENTATIONS`), and the
    two views derived from it: the parameter names of every function and the
    description blocks shown to the language model.

    Python dictionaries keep insertion order, so each dictionary is a
    sequence of (key, value) pairs with distinct keys. */
module Catalog {
  import opened Options

  /** An `example_usage` call such as `f(age_group='18–24', day='Friday')`:
      the called name and the (parameter, literal) pairs, in order. */
  datatype ExampleCall = ExampleCall(callee: string, arguments: seq<(string, string)>)

  /** One registry entry. `signature` maps each parameter name to a
      description that starts with its Python type. */
  datatype FunctionSpec = FunctionSpec(
    name: string,
    purpose: string,
    description: string,
    signature: seq<(string, string)>,
    exampleUsage: ExampleCall,
    exampleQueries: seq<string>)

  type Entry = (string, FunctionSpec)

  function EntryKeys<V>(entries: seq<(string, V)>): (ks: seq<string>)
    ensures |ks| == |entries|
    ensures forall i :: 0 <= i < |entries| ==> ks[i] == entries[i].0
  {
    seq(|entries|, i requires 0 <= i < |entries| => entries[i].0)
  }

  predicate UniqueKeys<V>(entries: seq<(string, V)>) {
    forall i, j :: 0 <= i < j < |entries| ==> entries[i].0 != entries[j].0
  }

  /** The declared parameter names of a function, in declaration order. */
  function ParamNames(spec: FunctionSpec): seq<string> {
    EntryKeys(spec.signature)
  }

  /** A parameter description the registry's way: "<type> (<note>) - <text>",
      the type first so that a schema can tell strings from integers. */
  function Describe(pyType: string, note: string, text: string): string {
    pyType + " (" + note + ") - " + text
  }

  const TopDropoffsEntry: Entry :=
    ("top_dropoffs_by_age_group_and_day", FunctionSpec(
      "top_dropoffs_by_age_group_and_day",
      "Find the most popular dropoff locations for a specific age group on a specific day",
      "Analyzes where riders of a certain age group go most frequently on a given day. Useful for understanding demographic preferences and popular destinations.",
      [("age_group", Describe("str", "required", "Age group like '18–24', '25–34', '35–44', '45–54', '55+'")),
       ("day", Describe("str", "optional", "Day of week like 'Monday', 'Tuesday', 'Wednesday', 'Thursday', 'Friday', 'Saturday', 'Sunday'")),
       ("top_k", Describe("int", "optional, default=5", "Number of top locations to return"))],
      ExampleCall("top_dropoffs_by_age_group_and_day", [("age_group", "18–24"), ("day", "Friday")]),
      ["Where do young people go on Friday nights?",
       "What are the top destinations for 18-24 year olds on Saturday?",
       "Where do college kids hang out on weekends?"]))

  const PeakHoursEntry: Entry :=
    ("peak_hours_for_large_groups", FunctionSpec(
      "peak_hours_for_large_groups",
      "Analyze when large groups of riders are most active throughout the day",
      "Shows hourly patterns of when groups of a certain size or larger tend to ride. Useful for understanding group behavior patterns and peak demand times.",
      [("min_group_size", Describe("int", "required", "Minimum group size to analyze (e.g., 6 for groups of 6+ people)"))],
      ExampleCall("peak_hours_for_large_groups", [("min_group_size", "6")]),
      ["When do big groups ride most?",
       "What time do large parties usually travel?",
       "When are groups of 8+ people most active?"]))

  const TripsToLocationEntry: Entry :=
    ("trips_to_specific_location", FunctionSpec(
      "trips_to_specific_location",
      "Count and analyze trips to a specific location or venue",
      "Tracks how many trips were made to locations containing a specific name. Shows trends over time for popular venues.",
      [("location_name", Describe("str", "required", "Name or part of location name to search for (e.g., 'Moody', 'Domain', 'Rainey')"))],
      ExampleCall("trips_to_specific_location", [("location_name", "Moody Center")]),
      ["How many rides go to the Moody Center?",
       "What's the traffic like to Domain?",
       "How popular is Rainey Street?"]))

  const AgeDistributionEntry: Entry :=
    ("age_distribution_at_location", FunctionSpec(
      "age_distribution_at_location",
      "Show the age demographics of riders going to a specific location",
      "Analyzes what age groups visit a particular venue most frequently. Useful for understanding venue demographics and target audiences.",
      [("location_name", Describe("str", "required", "Name or part of location name to analyze"))],
      ExampleCall("age_distribution_at_location", [("location_name", "Shakespeare")]),
      ["What ages hang out at Shakespeare's?",
       "Who goes to the Domain?",
       "What's the age breakdown at Rainey Street?"]))

  const GroupSizeEntry: Entry :=
    ("group_size_by_day_of_week", FunctionSpec(
      "group_size_by_day_of_week",
      "Analyze average group sizes by day of the week",
      "Shows how group sizes vary throughout the week. Useful for understanding when people travel in larger vs smaller groups.",
      [],
      ExampleCall("group_size_by_day_of_week", []),
      ["What's the average group size by day?",
       "When do people travel in bigger groups?",
       "How do group sizes change throughout the week?"]))

  const LeastBusyEntry: Entry :=
    ("least_busy_locations_by_day", FunctionSpec(
      "least_busy_locations_by_day",
      "Find locations with the fewest trips on a specific day (for crowd avoidance)",
      "Identifies locations that receive fewer trips on a given day, useful for finding quieter spots or avoiding crowds.",
      [("day", Describe("str", "required", "Day of week to analyze")),
       ("min_trips", Describe("int", "optional, default=5", "Minimum number of trips to consider a location"))],
      ExampleCall("least_busy_locations_by_day", [("day", "Saturday")]),
      ["Where should I avoid on Saturday because I hate crowds?",
       "What are the quietest spots on Friday night?",
       "Where can I go to avoid busy places on weekends?"]))

  const BusiestHoursEntry: Entry :=
    ("busiest_hours_by_location", FunctionSpec(
      "busiest_hours_by_location",
      "Find the busiest hours for a specific location",
      "Shows when a particular venue is most crowded throughout the day. Useful for timing visits to avoid or find peak times.",
      [("location_name", Describe("str", "required", "Name or part of location name to analyze"))],
      ExampleCall("busiest_hours_by_location", [("location_name", "Domain")]),
      ["When is the Domain busiest?",
       "What time should I avoid Rainey Street?",
       "When does Moody Center get crowded?"]))

  const WeekendPatternsEntry: Entry :=
    ("weekend_vs_weekday_patterns", FunctionSpec(
      "weekend_vs_weekday_patterns",
      "Compare riding patterns between weekends and weekdays",
      "Analyzes differences in trip patterns, popular destinations, and group sizes between weekend and weekday usage.",
      [],
      ExampleCall("weekend_vs_weekday_patterns", []),
      ["How do weekends compare to weekdays?",
       "What's different about weekend vs weekday patterns?",
       "Do people ride differently on weekends?"]))

  const QuietestDayEntry: Entry :=
    ("quietest_day_overall", FunctionSpec(
      "quietest_day_overall",
      "Find the quietest day by total rides across the dataset",
      "Aggregates trips by day of week and surfaces the day with the fewest rides, along with a ranked list.",
      [],
      ExampleCall("quietest_day_overall", []),
      ["What is the quietest day?",
       "Which day has the least rides?"]))

  /** The registry, in the order `FUNCTION_REGISTRY` lists its entries. */
  const Registry: seq<Entry> := [
    TopDropoffsEntry,
    PeakHoursEntry,
    TripsToLocationEntry,
    AgeDistributionEntry,
    GroupSizeEntry,
    LeastBusyEntry,
    BusiestHoursEntry,
    WeekendPatternsEntry,
    QuietestDayEntry]

  /** Function name to implementation name (both are the same Python name). */
  const Implementations: seq<(string, string)> := [
    ("top_dropoffs_by_age_group_and_day", "top_dropoffs_by_age_group_and_day"),
    ("peak_hours_for_large_groups", "peak_hours_for_large_groups"),
    ("trips_to_specific_location", "trips_to_specific_location"),
    ("age_distribution_at_location", "age_distribution_at_location"),
    ("group_size_by_day_of_week", "group_size_by_day_of_week"),
    ("least_busy_locations_by_day", "least_busy_locations_by_day"),
    ("busiest_hours_by_location", "busiest_hours_by_location"),
    ("weekend_vs_weekday_patterns", "weekend_vs_weekday_patterns"),
    ("quietest_day_overall", "quietest_day_overall")
  ]

  /** The registry's key set: the names a routing decision may call. */
  function Names(): set<string> {
    set i | 0 <= i < |Registry| :: Registry[i].0
  }

  /** `name in FUNCTION_REGISTRY`. */
  predicate IsRegistered(name: string) {
    name in EntryKeys(Registry)
  }

  /** Registration and the key set name the same functions. */
  lemma RegisteredNames(name: string)
    ensures IsRegistered(name) <==> name in Names()
  {
    KeySetOf(Registry, name);
  }

  lemma KeySetOf<V>(entries: seq<(string, V)>, name: string)
    ensures name in EntryKeys(entries) <==> name in set i | 0 <= i < |entries| :: entries[i].0
  {
    var ks := EntryKeys(entries);
    if name in ks {
      var i :| 0 <= i < |ks| && ks[i] == name;
      assert entries[i].0 == name;
    }
  }

  /** `FUNCTION_REGISTRY.get(name)`. */
  function Lookup(name: string): (r: Option<FunctionSpec>)
    ensures r.Some? <==> IsRegistered(name)
    ensures r.Some? ==> r.value.name == name && (name, r.value) in Registry
  {
    LookupIn(Registry, name)
  }

  function LookupIn(entries: seq<Entry>, name: string): (r: Option<FunctionSpec>)
    requires forall i :: 0 <= i < |entries| ==> entries[i].1.name == entries[i].0
    ensures r.Some? <==> name in EntryKeys(entries)
    ensures r.Some? ==> r.value.name == name && (name, r.value) in entries
  {
    if |entries| == 0 then None
    else if entries[0].0 == name then Some(entries[0].1)
    else
      assert EntryKeys(entries) == [entries[0].0] + EntryKeys(entries[1..]);
      LookupIn(entries[1..], name)
  }

  /** Every argument of an entry's example call is a declared parameter, and
      the example calls the entry itself. */
  predicate ExampleWellFormed(spec: FunctionSpec) {
    && spec.exampleUsage.callee == spec.name
    && forall a :: a in spec.exampleUsage.arguments ==> a.0 in ParamNames(spec)
  }

  /** The structural invariants of the registry. */
  predicate RegistryWellFormed(entries: seq<Entry>) {
    && UniqueKeys(entries)
    && (forall i :: 0 <= i < |entries| ==> entries[i].1.name == entries[i].0)
    && (forall i :: 0 <= i < |entries| ==> UniqueKeys(entries[i].1.signature))
    && (forall i :: 0 <= i < |entries| ==> ExampleWellFormed(entries[i].1))
  }

  /** The registry satisfies its invariants, and the implementation table
      names exactly the same nine functions, in the same order. */
  lemma RegistryInvariants()
    ensures RegistryWellFormed(Registry)
    ensures |Registry| == 9
    ensures EntryKeys(Implementations) == EntryKeys(Registry)
    ensures UniqueKeys(Implementations)
  {
    RegistryKeys();
    RegistrySignatures();
    RegistryExamples();
    ImplementationKeys();
  }

  lemma RegistryKeys()
    ensures |Registry| == 9
    ensures UniqueKeys(Registry)
    ensures forall i :: 0 <= i < |Registry| ==> Registry[i].1.name == Registry[i].0
  {
    assert EntryKeys(Registry) == FunctionNames;
    FunctionNamesDistinct();
  }

  /** The nine names, in registry order. */
  const FunctionNames: seq<string> := [
    "top_dropoffs_by_age_group_and_day", "peak_hours_for_large_groups",
    "trips_to_specific_location", "age_distribution_at_location",
    "group_size_by_day_of_week", "least_busy_locations_by_day",
    "busiest_hours_by_location", "weekend_vs_weekday_patterns",
    "quietest_day_overall"]

  /** No two names share both their first letter and their length. */
  lemma FunctionNamesDistinct()
    ensures forall i, j :: 0 <= i < j < |FunctionNames| ==> FunctionNames[i] != FunctionNames[j]
  {
    forall i, j | 0 <= i < j < |FunctionNames|
      ensures FunctionNames[i][0] != FunctionNames[j][0] || |FunctionNames[i]| != |FunctionNames[j]|
    {
    }
  }

  lemma RegistrySignatures()
    ensures forall i :: 0 <= i < |Registry| ==> UniqueKeys(Registry[i].1.signature)
  {
  }

  lemma RegistryExamples()
    ensures forall i :: 0 <= i < |Registry| ==> ExampleWellFormed(Registry[i].1)
  {
    forall i | 0 <= i < |Registry| ensures ExampleWellFormed(Registry[i].1) {
      ExampleDeclared(i);
    }
  }

  lemma ImplementationKeys()
    ensures EntryKeys(Implementations) == EntryKeys(Registry)
    ensures UniqueKeys(Implementations)
  {
    assert |Implementations| == |Registry| == 9;
    forall i | 0 <= i < 9 ensures Implementations[i].0 == Registry[i].0 {
    }
    RegistryKeys();
  }

  /** Entry by entry: the example call's arguments are declared parameters. */
  lemma ExampleDeclared(i: nat)
    requires i < |Registry|
    ensures ExampleWellFormed(Registry[i].1)
  {
    var names := ParamNames(Registry[i].1);
    if i == 0 {
      assert names == ["age_group", "day", "top_k"];
    } else if i == 1 {
      assert names == ["min_group_size"];
    } else if i == 2 || i == 3 || i == 6 {
      assert names == ["location_name"];
    } else if i == 5 {
      assert names == ["day", "min_trips"];
    }
  }

  /** One `get_function_descriptions` block, before it is laid out as text. */
  datatype DescriptionBlock = DescriptionBlock(
    name: string,
    purpose: string,
    description: string,
    parameters: seq<(string, string)>,
    example: ExampleCall,
    goodFor: seq<string>)

  function DescribeEntry(e: Entry): DescriptionBlock {
    var spec := e.1;
    DescriptionBlock(e.0, spec.purpose, spec.description, spec.signature,
                     spec.exampleUsage, spec.exampleQueries[..if |spec.exampleQueries| < 2 then |spec.exampleQueries| else 2])
  }

  /** `get_function_descriptions` over any registry: one block per entry in
      registry order, carrying its purpose, description, example call and
      every parameter, and its first two example queries, or all of them
      when it has fewer. */
  function DescriptionsOf(entries: seq<Entry>): (r: seq<DescriptionBlock>)
    ensures |r| == |entries|
    ensures forall i :: 0 <= i < |entries| ==>
      && r[i].name == entries[i].0
      && r[i].purpose == entries[i].1.purpose
      && r[i].description == entries[i].1.description
      && r[i].example == entries[i].1.exampleUsage
      && r[i].parameters == entries[i].1.signature
      && |r[i].goodFor| == (if |entries[i].1.exampleQueries| < 2 then |entries[i].1.exampleQueries| else 2)
      && r[i].goodFor == entries[i].1.exampleQueries[..|r[i].goodFor|]
  {
    seq(|entries|, i requires 0 <= i < |entries| => DescribeEntry(entries[i]))
  }

  function FunctionDescriptions(): seq<DescriptionBlock> {
    DescriptionsOf(Registry)
  }

  /** The description blocks of the registry name every registered function
      once: no block is missing and no name appears twice. */
  lemma DescriptionsCoverRegistry()
    ensures (set b | b in FunctionDescriptions() :: b.name) == Names()
    ensures forall i, j :: 0 <= i < j < |FunctionDescriptions()| ==> FunctionDescriptions()[i].name != FunctionDescriptions()[j].name
  {
    RegistryKeys();
    DescriptionNames(Registry);
  }

  lemma DescriptionNames(entries: seq<Entry>)
    ensures (set b | b in DescriptionsOf(entries) :: b.name) == set i | 0 <= i < |entries| :: entries[i].0
  {
    var r := DescriptionsOf(entries);
    var keys := set i | 0 <= i < |entries| :: entries[i].0;
    forall n | n in keys ensures n in set b | b in r :: b.name {
      var i :| 0 <= i < |entries| && entries[i].0 == n;
      assert r[i] in r;
    }
  }

  /** `get_function_signatures` over any registry with unique keys: every
      name maps to its parameter names in declaration order, and nothing
      else is mapped. */
  function SignaturesOf(entries: seq<Entry>): (m: map<string, seq<string>>)
    requires UniqueKeys(entries)
    ensures m.Keys == set i | 0 <= i < |entries| :: entries[i].0
    ensures forall i :: 0 <= i < |entries| ==> m[entries[i].0] == ParamNames(entries[i].1)
  {
    if |entries| == 0 then map[]
    else
      var last := |entries| - 1;
      var prev := SignaturesOf(entries[..last]);
      KeySetSnoc(entries);
      assert forall i :: 0 <= i < last ==> entries[..last][i] == entries[i];
      SignatureUpdate(entries, prev);
      prev[entries[last].0 := ParamNames(entries[last].1)]
  }

  /** Adding the last entry to the view of the others keeps their values. */
  lemma SignatureUpdate(entries: seq<Entry>, prev: map<string, seq<string>>)
    requires |entries| > 0 && UniqueKeys(entries)
    requires forall i :: 0 <= i < |entries| - 1 ==> entries[i].0 in prev && prev[entries[i].0] == ParamNames(entries[i].1)
    ensures var last := |entries| - 1;
      var m := prev[entries[last].0 := ParamNames(entries[last].1)];
      forall i :: 0 <= i < |entries| ==> m[entries[i].0] == ParamNames(entries[i].1)
  {
  }

  lemma KeySetSnoc<V>(entries: seq<(string, V)>)
    requires |entries| > 0
    ensures var last := |entries| - 1;
      (set i | 0 <= i < |entries| :: entries[i].0) == (set i | 0 <= i < last :: entries[..last][i].0) + {entries[last].0}
  {
    var last := |entries| - 1;
    var whole := set i | 0 <= i < |entries| :: entries[i].0;
    var init := set i | 0 <= i < last :: entries[..last][i].0;
    forall k | k in whole ensures k in init + {entries[last].0} {
      var i :| 0 <= i < |entries| && entries[i].0 == k;
      if i < last {
        assert entries[..last][i].0 == k;
      }
    }
    forall k | k in init ensures k in whole {
      var i :| 0 <= i < last && entries[..last][i].0 == k;
      assert entries[i].0 == k;
    }
  }

  function FunctionSignatures(): map<string, seq<string>>
  {
    RegistryInvariants();
    SignaturesOf(Registry)
  }

  /** The signature view of the actual registry: every registered name, and
      nothing else, maps to its parameter names in declaration order. */
  lemma SignatureView()
    ensures FunctionSignatures().Keys == Names()
    ensures forall i :: 0 <= i < |Registry| ==> FunctionSignatures()[Registry[i].0] == ParamNames(Registry[i].1)
  {
    RegistryKeys();
  }
}

=== FILE: defaults.dfy ===
/** The default arguments of the queries and what the registry's parameter
    descriptions say about them. */
module Defaults {
  import opened Options
  import opened Text
  import Catalog

  /** The Python defaults of the queries' integer parameters:
      `top_k = 5`, `min_group_size = 6` and `min_trips = 5`. A missing
      `day` of the top drop-offs query is `None` in `Queries.TopDropoffs`. */
  const DefaultTopK: int := 5
  const DefaultMinGroupSize: int := 6
  const DefaultMinTrips: int := 5

  /** The default a query gives an integer parameter the caller leaves out,
      by function and parameter name; `None` where there is none. */
  function IntDefault(query: string, parameter: string): Option<int> {
    if parameter == "top_k" && query == "top_dropoffs_by_age_group_and_day" then Some(DefaultTopK)
    else if parameter == "min_group_size" && query == "peak_hours_for_large_groups" then Some(DefaultMinGroupSize)
    else if parameter == "min_trips" && query == "least_busy_locations_by_day" then Some(DefaultMinTrips)
    else None
  }

  const DefaultMark: string := "int (optional, default="

  /** The default a parameter's description promises: the registry writes
      one as "int (optional, default=N)" at the head of the description. */
  function DocumentedDefault(description: string): Option<nat> {
    if IsPrefix(DefaultMark, description) then
      var digits := BeforeFirst(description[|DefaultMark|..], ')');
      if |digits| >= 1 && AllDigits(digits) then Some(ParseDigits(digits)) else None
    else None
  }

  /** What the registry promises about a parameter's default, against the
      query: "default=5" is written exactly where the query's default is 5,
      any promised default is the query's own, and the one default the
      registry leaves unpromised is `min_group_size`'s, which it calls
      required. */
  predicate DefaultDocumented(query: string, parameter: (string, string)) {
    var (name, description) := parameter;
    && (DocumentedDefault(description) == Some(5) <==> IntDefault(query, name) == Some(5))
    && (DocumentedDefault(description).Some? ==> DocumentedDefault(description) == IntDefault(query, name))
    && (IntDefault(query, name).Some? && DocumentedDefault(description).None? ==>
          name == "min_group_size" && IsPrefix("int (required)", description))
  }

  /** The three forms a registry parameter description takes with respect
      to defaults. */
  predicate DefaultShape(query: string, parameter: (string, string)) {
    var (name, description) := parameter;
    || (IntDefault(query, name) == Some(5) && IsPrefix("int (optional, default=5)", description))
    || (IntDefault(query, name).None? && |description| > 0 && description[0] != 'i')
    || (IntDefault(query, name) == Some(6) && name == "min_group_size" && IsPrefix("int (required)", description))
  }

  /** Reading a description of one of those forms gives what
      `DefaultDocumented` asks for. */
  lemma ShapeDocumented(query: string, parameter: (string, string))
    requires DefaultShape(query, parameter)
    ensures DefaultDocumented(query, parameter)
  {
    var (name, description) := parameter;
    if IntDefault(query, name) == Some(5) {
      assert IsPrefix("int (optional, default=5)", description);
      assert description[..|DefaultMark|] == "int (optional, default=5)"[..|DefaultMark|];
      var rest := description[|DefaultMark|..];
      assert rest[0] == '5' && rest[1] == ')';
      assert BeforeFirst(rest[1..], ')') == [];
      assert BeforeFirst(rest, ')') == "5";
      assert ParseDigits("5") == 5;
    } else {
      var head := description[..if |description| < |DefaultMark| then |description| else |DefaultMark|];
      assert DefaultMark[0] == 'i' && DefaultMark[5] == 'o';
      assert head[0] == description[0];
      assert |head| > 5 ==> head[5] == description[5];
      assert !IsPrefix(DefaultMark, description);
    }
  }

  lemma SignatureDocumented(query: string, signature: seq<(string, string)>)
    requires forall j :: 0 <= j < |signature| ==> DefaultShape(query, signature[j])
    ensures forall j :: 0 <= j < |signature| ==> DefaultDocumented(query, signature[j])
  {
    forall j | 0 <= j < |signature| ensures DefaultDocumented(query, signature[j]) {
      ShapeDocumented(query, signature[j]);
    }
  }

  /** Every parameter description of an entry has one of the shapes
      `DefaultShape` reads. */
  predicate EntryShaped(e: Catalog.Entry) {
    forall j :: 0 <= j < |e.1.signature| ==> DefaultShape(e.0, e.1.signature[j])
  }

  /** The opening a parameter description needs for its query's default:
      "int (optional, default=5)" for a default of 5, "str (" for a
      parameter without an integer default, and "int (required)" for
      `min_group_size`. */
  predicate ShapedHead(query: string, name: string, head: string) {
    || (IntDefault(query, name) == Some(5) && head == "int (optional, default=5)")
    || (IntDefault(query, name).None? && head == "str (")
    || (IntDefault(query, name) == Some(6) && name == "min_group_size" && head == "int (required)")
  }

  /** A description with the opening its query's default needs has one of
      the shapes `DefaultShape` reads. */
  lemma HeadShape(query: string, parameter: (string, string), head: string)
    requires ShapedHead(query, parameter.0, head)
    requires IsPrefix(head, parameter.1)
    ensures DefaultShape(query, parameter)
  {
    var d := parameter.1;
    assert d[0] == head[0];
    assert |head| > 5 ==> d[5] == head[5];
  }

  /** Every description `Catalog.Describe` writes opens with
      "<type> (<note>)". */
  lemma DescribeOpens()
    ensures forall pyType, note, text ::
      IsPrefix(pyType + " (" + note + ")", Catalog.Describe(pyType, note, text))
  {
    forall pyType, note, text
      ensures IsPrefix(pyType + " (" + note + ")", Catalog.Describe(pyType, note, text))
    {
      var opening := pyType + " (" + note + ")";
      var d := Catalog.Describe(pyType, note, text);
      assert d == opening + (" - " + text);
      assert d[..|opening|] == opening;
    }
  }

  /** The openings the registry uses, spelt out. */
  lemma Openings(note: string)
    ensures "int" + " (" + "optional, default=5" + ")" == "int (optional, default=5)"
    ensures "int" + " (" + "required" + ")" == "int (required)"
    ensures ("str" + " (" + note + ")")[..5] == "str ("
  {
  }

  /** A description opening with "<type> (<note>)" for a type and note that
      fit its query's default has one of the shapes `DefaultShape` reads. */
  lemma NoteShape(query: string, parameter: (string, string), pyType: string, note: string)
    requires || (IntDefault(query, parameter.0) == Some(5) && pyType == "int" && note == "optional, default=5")
             || (IntDefault(query, parameter.0).None? && pyType == "str")
             || (IntDefault(query, parameter.0) == Some(6) && parameter.0 == "min_group_size" && pyType == "int" && note == "required")
    requires IsPrefix(pyType + " (" + note + ")", parameter.1)
    ensures DefaultShape(query, parameter)
  {
    var opening := pyType + " (" + note + ")";
    Openings(note);
    if pyType == "str" {
      assert parameter.1[..5] == opening[..5];
      HeadShape(query, parameter, "str (");
    } else if note == "required" {
      HeadShape(query, parameter, "int (required)");
    } else {
      HeadShape(query, parameter, "int (optional, default=5)");
    }
  }

  /* One lemma per registry entry keeps each proof about the registry's
     text small. */

  lemma EntryShape0()
    ensures EntryShaped(Catalog.TopDropoffsEntry)
  {
    var e := Catalog.TopDropoffsEntry;
    DescribeOpens();
    NoteShape(e.0, e.1.signature[0], "str", "required");
    NoteShape(e.0, e.1.signature[1], "str", "optional");
    NoteShape(e.0, e.1.signature[2], "int", "optional, default=5");
  }

  lemma EntryShape1()
    ensures EntryShaped(Catalog.PeakHoursEntry)
  {
    var e := Catalog.PeakHoursEntry;
    DescribeOpens();
    NoteShape(e.0, e.1.signature[0], "int", "required");
  }

  lemma EntryShape2()
    ensures EntryShaped(Catalog.TripsToLocationEntry)
  {
    var e := Catalog.TripsToLocationEntry;
    DescribeOpens();
    NoteShape(e.0, e.1.signature[0], "str", "required");
  }

  lemma EntryShape3()
    ensures EntryShaped(Catalog.AgeDistributionEntry)
  {
    var e := Catalog.AgeDistributionEntry;
    DescribeOpens();
    NoteShape(e.0, e.1.signature[0], "str", "required");
  }

  lemma EntryShape4()
    ensures EntryShaped(Catalog.GroupSizeEntry)
  {
  }

  lemma EntryShape5()
    ensures EntryShaped(Catalog.LeastBusyEntry)
  {
    var e := Catalog.LeastBusyEntry;
    DescribeOpens();
    NoteShape(e.0, e.1.signature[0], "str", "required");
    NoteShape(e.0, e.1.signature[1], "int", "optional, default=5");
  }

  lemma EntryShape6()
    ensures EntryShaped(Catalog.BusiestHoursEntry)
  {
    var e := Catalog.BusiestHoursEntry;
    DescribeOpens();
    NoteShape(e.0, e.1.signature[0], "str", "required");
  }

  lemma EntryShape7()
    ensures EntryShaped(Catalog.WeekendPatternsEntry)
  {
  }

  lemma EntryShape8()
    ensures EntryShaped(Catalog.QuietestDayEntry)
  {
  }

  lemma EntryShapes(i: nat)
    requires i < |Catalog.Registry|
    ensures EntryShaped(Catalog.Registry[i])
  {
    if i == 0 { EntryShape0(); }
    else if i == 1 { EntryShape1(); }
    else if i == 2 { EntryShape2(); }
    else if i == 3 { EntryShape3(); }
    else if i == 4 { EntryShape4(); }
    else if i == 5 { EntryShape5(); }
    else if i == 6 { EntryShape6(); }
    else if i == 7 { EntryShape7(); }
    else { EntryShape8(); }
  }

  /** The registry documents the queries' defaults truthfully: "default=5"
      marks exactly `top_k` and `min_trips`, whose query defaults are 5, and
      `min_group_size`, whose default is 6, is described as required. */
  lemma DefaultsDocumented()
    ensures forall i, j :: 0 <= i < |Catalog.Registry| && 0 <= j < |Catalog.Registry[i].1.signature| ==>
      DefaultDocumented(Catalog.Registry[i].0, Catalog.Registry[i].1.signature[j])
  {
    forall i | 0 <= i < |Catalog.Registry|
      ensures forall j :: 0 <= j < |Catalog.Registry[i].1.signature| ==>
        DefaultDocumented(Catalog.Registry[i].0, Catalog.Registry[i].1.signature[j])
    {
      var e := Catalog.Registry[i];
      EntryShapes(i);
      SignatureDocumented(e.0, e.1.signature);
    }
  }
}

=== FILE: options.dfy ===
/** A value that may be absent: Python's `None` versus a present value. */
module Options {

  datatype Option<+T> = None | Some(value: T) {

    /** Returns the value, or `default` when absent (Python's `x or default`
        when only `None` is falsy). */
    function GetOr(default: T): T {
      match this
      case Some(v) => v
      case None => default
    }
  }
}

=== FILE: queries.dfy ===
/** The counting queries of the query engine, over a sequence of rider rows
    instead of a data frame: select the rows a query is about, count them
    per key, order the counts, and keep a leading part. Charts are not
    modelled; each query returns its table. */
module Queries {
  import opened Options
  import opened Text
  import opened Aggregate
  import opened Trips

  /** The row selections the queries make. */
  datatype Selection =
    | AgeAndDay(ageGroup: string, day: Option<string>)
    | OnDay(weekday: string)
    | LargeGroups(minGroupSize: int)
    | LocationLike(location: string)

  /** Whether a row survives a selection. A day of `None` or "" is falsy in
      Python and does not restrict; a missing weekday or party size (NaN)
      neither equals a day nor reaches a size; a location matches when its
      lower-cased text occurs in the lower-cased simplified drop-off name. */
  predicate Keeps(s: Selection, t: Trip)
    ensures s.AgeAndDay? && (s.day.None? || s.day.value == []) ==> (Keeps(s, t) <==> AgeGroupOf(t) == s.ageGroup)
    ensures t.dayOfWeek.None? && Keeps(s, t) ==> !s.OnDay? && !(s.AgeAndDay? && s.day.Some? && s.day.value != [])
    ensures t.totalPassengers.None? && Keeps(s, t) ==> !s.LargeGroups?
  {
    match s
    case AgeAndDay(g, d) => AgeGroupOf(t) == g && (d.None? || d.value == [] || t.dayOfWeek == Some(d.value))
    case OnDay(d) => t.dayOfWeek == Some(d)
    case LargeGroups(m) => t.totalPassengers.Some? && t.totalPassengers.value >= m
    case LocationLike(q) => Contains(Lower(DropoffOf(t)), Lower(q))
  }

  /** `df[mask]`: the rows that survive, in order. */
  function Select(trips: seq<Trip>, s: Selection): (r: seq<Trip>)
    ensures |r| == Count(trips, s)
    ensures forall t :: t in r <==> t in trips && Keeps(s, t)
  {
    if |trips| == 0 then []
    else
      var init, last := trips[..|trips| - 1], trips[|trips| - 1];
      assert trips == init + [last];
      Select(init, s) + (if Keeps(s, last) then [last] else [])
  }

  /** Number of rows that survive `s`. */
  function Count(trips: seq<Trip>, s: Selection): nat {
    if |trips| == 0 then 0
    else Count(trips[..|trips| - 1], s) + (if Keeps(s, trips[|trips| - 1]) then 1 else 0)
  }

  /** Number of rows that survive `s` and have key `k`: the figure a
      `groupby(...).size()` row must show. A key is `None` where the row's
      value is missing. */
  function CountWith<K(==)>(trips: seq<Trip>, s: Selection, key: Trip -> Option<K>, k: K): nat {
    if |trips| == 0 then 0
    else
      var last := trips[|trips| - 1];
      CountWith(trips[..|trips| - 1], s, key, k) + (if Keeps(s, last) && key(last) == Some(k) then 1 else 0)
  }

  /** Number of rows that survive `s` and have a key at all: `groupby`
      leaves out rows whose key is missing. */
  function CountKeyed<K>(trips: seq<Trip>, s: Selection, key: Trip -> Option<K>): nat {
    if |trips| == 0 then 0
    else
      var last := trips[|trips| - 1];
      CountKeyed(trips[..|trips| - 1], s, key) + (if Keeps(s, last) && key(last).Some? then 1 else 0)
  }

  /** Grouping counts no more rows than were selected. */
  lemma {:induction false} KeyedAtMost<K>(trips: seq<Trip>, s: Selection, key: Trip -> Option<K>)
    ensures CountKeyed(trips, s, key) <= Count(trips, s)
  {
    if |trips| > 0 {
      KeyedAtMost(trips[..|trips| - 1], s, key);
    }
  }

  /** When every row has a key, grouping counts every selected row. */
  lemma {:induction false} KeyedAll<K>(trips: seq<Trip>, s: Selection, key: Trip -> Option<K>)
    requires forall i :: 0 <= i < |trips| ==> key(trips[i]).Some?
    ensures CountKeyed(trips, s, key) == Count(trips, s)
  {
    if |trips| > 0 {
      var init := trips[..|trips| - 1];
      assert forall i :: 0 <= i < |init| ==> init[i] == trips[i];
      KeyedAll(init, s, key);
    }
  }

  /** The present values of a sequence of optional keys, in order. */
  function Present<K>(xs: seq<Option<K>>): (r: seq<K>)
    ensures |r| <= |xs|
  {
    if |xs| == 0 then []
    else
      var last := xs[|xs| - 1];
      Present(xs[..|xs| - 1]) + (if last.Some? then [last.value] else [])
  }

  lemma PresentSnoc<K>(xs: seq<Option<K>>, x: Option<K>)
    ensures Present(xs + [x]) == Present(xs) + (if x.Some? then [x.value] else [])
  {
    assert (xs + [x])[..|xs|] == xs;
  }

  function KeysOf<K>(trips: seq<Trip>, key: Trip -> K): (ks: seq<K>)
    ensures |ks| == |trips|
    ensures forall i :: 0 <= i < |trips| ==> ks[i] == key(trips[i])
  {
    seq(|trips|, i requires 0 <= i < |trips| => key(trips[i]))
  }

  /** Counting a key among the selected rows is counting the rows that are
      both selected and carry the key. */
  lemma {:induction false} OccurrencesSelected<K>(trips: seq<Trip>, s: Selection, key: Trip -> Option<K>, k: K)
    ensures Occurrences(Present(KeysOf(Select(trips, s), key)), k) == CountWith(trips, s, key, k)
  {
    if |trips| > 0 {
      var init, last := trips[..|trips| - 1], trips[|trips| - 1];
      var before := Present(KeysOf(Select(init, s), key));
      OccurrencesSelected(init, s, key, k);
      SelectedKeysSnoc(trips, s, key);
      assert CountWith(trips, s, key, k) == CountWith(init, s, key, k) + (if Keeps(s, last) && key(last) == Some(k) then 1 else 0);
      if Keeps(s, last) && key(last).Some? {
        OccurrencesSnoc(before, key(last).value, k);
      } else {
        assert Present(KeysOf(Select(trips, s), key)) == before + [];
        assert before + [] == before;
      }
    }
  }

  /** The keys grouped are those of the selected rows that have one. */
  lemma {:induction false} KeyedSelected<K>(trips: seq<Trip>, s: Selection, key: Trip -> Option<K>)
    ensures |Present(KeysOf(Select(trips, s), key))| == CountKeyed(trips, s, key)
  {
    if |trips| > 0 {
      KeyedSelected(trips[..|trips| - 1], s, key);
      SelectedKeysSnoc(trips, s, key);
    }
  }

  /** The grouped keys gain the last row's key when that row is selected
      and has one. */
  lemma SelectedKeysSnoc<K>(trips: seq<Trip>, s: Selection, key: Trip -> Option<K>)
    requires |trips| > 0
    ensures var init, last := trips[..|trips| - 1], trips[|trips| - 1];
      Present(KeysOf(Select(trips, s), key)) ==
        Present(KeysOf(Select(init, s), key)) + (if Keeps(s, last) && key(last).Some? then [key(last).value] else [])
  {
    var init, last := trips[..|trips| - 1], trips[|trips| - 1];
    var before := Select(init, s);
    if Keeps(s, last) {
      assert Select(trips, s) == before + [last];
      KeysOfSnoc(before, last, key);
      PresentSnoc(KeysOf(before, key), key(last));
    } else {
      assert Select(trips, s) == before;
    }
  }

  lemma KeysOfSnoc<K>(ts: seq<Trip>, t: Trip, key: Trip -> K)
    ensures KeysOf(ts + [t], key) == KeysOf(ts, key) + [key(t)]
  {
  }

  /** `df[mask].groupby(key).size()`: one group per key among the selected
      rows, each counting exactly the selected rows with that key; a key
      has a group exactly when some selected row carries it, and the counts
      add up to the number of selected rows that have a key. */
  function CountBy<K(==,!new)>(trips: seq<Trip>, s: Selection, key: Trip -> Option<K>): (gs: seq<Group<K>>)
    ensures DistinctKeys(gs)
    ensures forall i :: 0 <= i < |gs| ==> gs[i].count == CountWith(trips, s, key, gs[i].key) >= 1
    ensures forall k :: k in Keys(gs) <==> CountWith(trips, s, key, k) > 0
    ensures Total(gs) == CountKeyed(trips, s, key)
  {
    var ks := Present(KeysOf(Select(trips, s), key));
    KeyedSelected(trips, s, key);
    var gs := GroupCount(ks);
    forall k ensures Occurrences(ks, k) == CountWith(trips, s, key, k) {
      OccurrencesSelected(trips, s, key, k);
    }
    forall k ensures k in Keys(gs) <==> CountWith(trips, s, key, k) > 0 {
      OccurrencesPositive(ks, k);
    }
    gs
  }

  function ByCountDescending<K>(g: Group<K>): int {
    -(g.count as int)
  }

  function ByCount<K>(g: Group<K>): int {
    g.count
  }

  function ByKey(g: Group<int>): int {
    g.key
  }

  /** The drop-off name and the age band are never missing. */
  function DropoffKey(t: Trip): Option<string> {
    Some(DropoffOf(t))
  }

  function AgeKey(t: Trip): Option<string> {
    Some(AgeGroupOf(t))
  }

  /** Every group shows exactly the number of rows that survive `s` and
      carry its key, and that number is positive. */
  predicate CountsExact<K(==)>(gs: seq<Group<K>>, trips: seq<Trip>, s: Selection, key: Trip -> Option<K>) {
    forall i :: 0 <= i < |gs| ==> gs[i].count == CountWith(trips, s, key, gs[i].key) >= 1
  }

  /** Counts never increase along the table. */
  predicate Descending<K>(gs: seq<Group<K>>) {
    forall i, j :: 0 <= i < j < |gs| ==> gs[i].count >= gs[j].count
  }

  /** Counts never decrease along the table. */
  predicate Ascending<K>(gs: seq<Group<K>>) {
    forall i, j :: 0 <= i < j < |gs| ==> gs[i].count <= gs[j].count
  }

  /** Keys strictly increase along the table. */
  predicate StrictlyByKey(gs: seq<Group<int>>) {
    forall i, j :: 0 <= i < j < |gs| ==> gs[i].key < gs[j].key
  }

  /** Any table made of groups of an exact table is exact. */
  lemma ExactSubset<K>(a: seq<Group<K>>, b: seq<Group<K>>, trips: seq<Trip>, s: Selection, key: Trip -> Option<K>)
    requires forall g :: g in a ==> g in b
    requires CountsExact(b, trips, s, key)
    ensures CountsExact(a, trips, s, key)
  {
    forall i | 0 <= i < |a| ensures a[i].count == CountWith(trips, s, key, a[i].key) >= 1 {
      assert a[i] in b;
    }
  }

  /** Sorting keeps the set of keys. */
  lemma SortKeepsKeys<K>(gs: seq<Group<K>>, rank: Group<K> -> int)
    ensures forall k :: k in Keys(SortBy(gs, rank)) <==> k in Keys(gs)
  {
    var r := SortBy(gs, rank);
    forall k ensures k in Keys(r) <==> k in Keys(gs) {
      if k in Keys(r) {
        var i :| 0 <= i < |r| && r[i].key == k;
        assert r[i] in multiset(gs);
        var j :| 0 <= j < |gs| && gs[j] == r[i];
      }
      if k in Keys(gs) {
        var j :| 0 <= j < |gs| && gs[j].key == k;
        assert gs[j] in multiset(r);
        var i :| 0 <= i < |r| && r[i] == gs[j];
      }
    }
  }

  /** Sorting an exact table by any rank gives an exact table with the same
      keys, the same total and, when its keys were distinct, distinct keys. */
  lemma SortExact<K>(gs: seq<Group<K>>, rank: Group<K> -> int, trips: seq<Trip>, s: Selection, key: Trip -> Option<K>)
    requires CountsExact(gs, trips, s, key) && DistinctKeys(gs)
    ensures var r := SortBy(gs, rank);
      CountsExact(r, trips, s, key) && DistinctKeys(r) && Total(r) == Total(gs)
  {
    var r := SortBy(gs, rank);
    SortByTotal(gs, rank);
    SortByDistinct(gs, rank);
    assert forall g :: g in r ==> g in multiset(gs);
    ExactSubset(r, gs, trips, s, key);
  }

  lemma DescendingOfSorted<K>(gs: seq<Group<K>>)
    requires SortedBy(gs, ByCountDescending)
    ensures Descending(gs)
  {
    forall i, j | 0 <= i < j < |gs| ensures gs[i].count >= gs[j].count {
      assert ByCountDescending(gs[i]) <= ByCountDescending(gs[j]);
    }
  }

  lemma AscendingOfSorted<K>(gs: seq<Group<K>>)
    requires SortedBy(gs, ByCount)
    ensures Ascending(gs)
  {
    forall i, j | 0 <= i < j < |gs| ensures gs[i].count <= gs[j].count {
      assert ByCount(gs[i]) <= ByCount(gs[j]);
    }
  }

  lemma StrictlyOfSorted(gs: seq<Group<int>>)
    requires SortedBy(gs, ByKey) && DistinctKeys(gs)
    ensures StrictlyByKey(gs)
  {
    forall i, j | 0 <= i < j < |gs| ensures gs[i].key < gs[j].key {
      assert ByKey(gs[i]) <= ByKey(gs[j]);
    }
  }

  /** A leading part of a table keeps its order, exactness and distinct
      keys. */
  lemma PrefixKeeps<K>(r: seq<Group<K>>, gs: seq<Group<K>>, trips: seq<Trip>, s: Selection, key: Trip -> Option<K>)
    requires |r| <= |gs| && r == gs[..|r|]
    ensures Descending(gs) ==> Descending(r)
    ensures Ascending(gs) ==> Ascending(r)
    ensures DistinctKeys(gs) ==> DistinctKeys(r)
    ensures CountsExact(gs, trips, s, key) ==> CountsExact(r, trips, s, key)
  {
    assert forall i :: 0 <= i < |r| ==> r[i] == gs[i];
  }

  /** The counting step shared by all queries, stated through the
      predicates above. */
  lemma CountByExact<K(!new)>(trips: seq<Trip>, s: Selection, key: Trip -> Option<K>)
    ensures CountsExact(CountBy(trips, s, key), trips, s, key)
  {
  }

  /* ---------------------------------------------------------------------
     The queries
     --------------------------------------------------------------------- */

  function Min(a: int, b: int): int {
    if a < b then a else b
  }

  function Max(a: int, b: int): int {
    if a < b then b else a
  }

  /** Drop-off names counted over the rows of `ageGroup` (and of `day`,
      when it is given), most visited first. */
  function RankedDropoffs(trips: seq<Trip>, ageGroup: string, day: Option<string>): (r: seq<Group<string>>)
    ensures Descending(r) && DistinctKeys(r)
    ensures CountsExact(r, trips, AgeAndDay(ageGroup, day), DropoffKey)
    ensures forall k :: k in Keys(r) <==> CountWith(trips, AgeAndDay(ageGroup, day), DropoffKey, k) > 0
    ensures SortedBy(r, ByCountDescending)
  {
    var gs := CountBy(trips, AgeAndDay(ageGroup, day), DropoffKey);
    CountByExact(trips, AgeAndDay(ageGroup, day), DropoffKey);
    var r := SortBy(gs, ByCountDescending);
    SortExact(gs, ByCountDescending, trips, AgeAndDay(ageGroup, day), DropoffKey);
    SortKeepsKeys(gs, ByCountDescending);
    DescendingOfSorted(r);
    r
  }

  /** `top_dropoffs_by_age_group_and_day`: the ranked drop-offs cut to
      `top_k` rows (pandas' `head`, so a negative `top_k` drops that many
      rows from the end): the leading rows of the ranking, `top_k` of them
      or all when there are fewer, most visited first, each with the exact
      number of matching rows. */
  function TopDropoffs(trips: seq<Trip>, ageGroup: string, day: Option<string>, topK: int): (r: seq<Group<string>>)
    ensures |r| <= |RankedDropoffs(trips, ageGroup, day)| && r == RankedDropoffs(trips, ageGroup, day)[..|r|]
    ensures topK >= 0 ==> |r| == Min(topK, |RankedDropoffs(trips, ageGroup, day)|)
    ensures topK < 0 ==> |r| == Max(0, |RankedDropoffs(trips, ageGroup, day)| + topK)
    ensures Descending(r) && DistinctKeys(r)
    ensures CountsExact(r, trips, AgeAndDay(ageGroup, day), DropoffKey)
  {
    var ranked := RankedDropoffs(trips, ageGroup, day);
    var r := Head(ranked, topK);
    PrefixKeeps(r, ranked, trips, AgeAndDay(ageGroup, day), DropoffKey);
    r
  }

  /** Nothing left out of the top drop-offs was visited more often than a
      location that made it in. */
  lemma TopDropoffsAreTop(trips: seq<Trip>, ageGroup: string, day: Option<string>, topK: int, location: string)
    requires CountWith(trips, AgeAndDay(ageGroup, day), DropoffKey, location) > 0
    requires location !in Keys(TopDropoffs(trips, ageGroup, day, topK))
    ensures topK >= 0 ==> |TopDropoffs(trips, ageGroup, day, topK)| == topK
    ensures forall g :: g in TopDropoffs(trips, ageGroup, day, topK) ==>
      g.count >= CountWith(trips, AgeAndDay(ageGroup, day), DropoffKey, location)
  {
    var ranked := RankedDropoffs(trips, ageGroup, day);
    var r := TopDropoffs(trips, ageGroup, day, topK);
    assert r == Head(ranked, topK);
    var j :| 0 <= j < |ranked| && ranked[j].key == location;
    var g := ranked[j];
    assert g.count == CountWith(trips, AgeAndDay(ageGroup, day), DropoffKey, location);
    assert g !in r;
    if topK >= 0 {
      HeadFull(ranked, topK, g);
    }
    HeadDominates(ranked, topK, ByCountDescending, g);
    forall x | x in r ensures x.count >= g.count {
      assert ByCountDescending(x) <= ByCountDescending(g);
    }
  }

  /** A `groupby(key).size()` on an integer key, in increasing key order. */
  function OrderedCount(trips: seq<Trip>, s: Selection, key: Trip -> Option<int>): (r: seq<Group<int>>)
    ensures StrictlyByKey(r)
    ensures CountsExact(r, trips, s, key)
    ensures forall k :: k in Keys(r) <==> CountWith(trips, s, key, k) > 0
    ensures Total(r) == CountKeyed(trips, s, key)
  {
    var gs := CountBy(trips, s, key);
    CountByExact(trips, s, key);
    var r := SortBy(gs, ByKey);
    SortExact(gs, ByKey, trips, s, key);
    SortKeepsKeys(gs, ByKey);
    StrictlyOfSorted(r);
    r
  }

  /** Every row has a trip time. */
  predicate AllTimed(trips: seq<Trip>) {
    forall i :: 0 <= i < |trips| ==> trips[i].hour.Some? && trips[i].date.Some?
  }

  /** `peak_hours_for_large_groups`: trips per hour among rows with at least
      `min_group_size` passengers, in strictly increasing hour order, adding
      up to the number of such rows that have an hour (all of them when
      every row has a trip time). */
  function PeakHours(trips: seq<Trip>, minGroupSize: int): (r: seq<Group<int>>)
    ensures StrictlyByKey(r)
    ensures CountsExact(r, trips, LargeGroups(minGroupSize), HourOf)
    ensures forall h :: h in Keys(r) <==> CountWith(trips, LargeGroups(minGroupSize), HourOf, h) > 0
    ensures Total(r) == CountKeyed(trips, LargeGroups(minGroupSize), HourOf) <= Count(trips, LargeGroups(minGroupSize))
    ensures AllTimed(trips) ==> Total(r) == Count(trips, LargeGroups(minGroupSize))
  {
    KeyedAtMost(trips, LargeGroups(minGroupSize), HourOf);
    assert AllTimed(trips) ==> CountKeyed(trips, LargeGroups(minGroupSize), HourOf) == Count(trips, LargeGroups(minGroupSize)) by {
      if AllTimed(trips) {
        KeyedAll(trips, LargeGroups(minGroupSize), HourOf);
      }
    }
    OrderedCount(trips, LargeGroups(minGroupSize), HourOf)
  }

  /** Only rows with at least `min_group_size` passengers are counted: the
      hourly counts add up to the number of such rows. */
  lemma {:induction false} LargeGroupsCounted(trips: seq<Trip>, minGroupSize: int)
    ensures Count(trips, LargeGroups(minGroupSize)) == |set i | 0 <= i < |trips| && trips[i].totalPassengers.Some? && trips[i].totalPassengers.value >= minGroupSize|
  {
    if |trips| > 0 {
      var init := trips[..|trips| - 1];
      LargeGroupsCounted(init, minGroupSize);
      LargeRowsStep(trips, minGroupSize);
    }
  }

  /** The large rows of `trips` are those of all but its last row, plus the
      last row when it is large. */
  lemma LargeRowsStep(trips: seq<Trip>, m: int)
    requires |trips| > 0
    ensures var n := |trips| - 1;
      var before := set i | 0 <= i < n && trips[..n][i].totalPassengers.Some? && trips[..n][i].totalPassengers.value >= m;
      var now := set i | 0 <= i < |trips| && trips[i].totalPassengers.Some? && trips[i].totalPassengers.value >= m;
      now == before + (if trips[n].totalPassengers.Some? && trips[n].totalPassengers.value >= m then {n} else {}) && n !in before
  {
    var n := |trips| - 1;
    var before := set i | 0 <= i < n && trips[..n][i].totalPassengers.Some? && trips[..n][i].totalPassengers.value >= m;
    var now := set i | 0 <= i < |trips| && trips[i].totalPassengers.Some? && trips[i].totalPassengers.value >= m;
    forall i | i in now ensures i in before + (if trips[n].totalPassengers.Some? && trips[n].totalPassengers.value >= m then {n} else {}) {
      if i < n {
        assert trips[..n][i] == trips[i];
      }
    }
    forall i | i in before ensures i in now {
      assert trips[..n][i] == trips[i];
    }
  }

  const LeastBusyLimit: nat := 10

  /** Drop-off names counted over the day's rows, least visited first. */
  function DayCounts(trips: seq<Trip>, day: string): (r: seq<Group<string>>)
    ensures SortedBy(r, ByCount) && DistinctKeys(r)
    ensures CountsExact(r, trips, OnDay(day), DropoffKey)
    ensures forall k :: k in Keys(r) <==> CountWith(trips, OnDay(day), DropoffKey, k) > 0
  {
    var gs := CountBy(trips, OnDay(day), DropoffKey);
    CountByExact(trips, OnDay(day), DropoffKey);
    SortExact(gs, ByCount, trips, OnDay(day), DropoffKey);
    SortKeepsKeys(gs, ByCount);
    SortBy(gs, ByCount)
  }

  /** The day's drop-offs without those under `min_trips`, least visited
      first. */
  function QualifyingDropoffs(trips: seq<Trip>, day: string, minTrips: int): (r: seq<Group<string>>)
    ensures SortedBy(r, ByCount) && Ascending(r) && DistinctKeys(r)
    ensures CountsExact(r, trips, OnDay(day), DropoffKey)
    ensures forall i :: 0 <= i < |r| ==> r[i].count >= minTrips
  {
    var sorted := DayCounts(trips, day);
    var r := AtLeast(sorted, minTrips);
    AtLeastSorted(sorted, minTrips, ByCount);
    AtLeastDistinct(sorted, minTrips);
    ExactSubset(r, sorted, trips, OnDay(day), DropoffKey);
    AscendingOfSorted(r);
    r
  }

  /** Every drop-off with at least `min_trips` trips on the day qualifies. */
  lemma QualifyingHas(trips: seq<Trip>, day: string, minTrips: int, location: string)
    requires CountWith(trips, OnDay(day), DropoffKey, location) >= minTrips
    requires CountWith(trips, OnDay(day), DropoffKey, location) > 0
    ensures location in Keys(QualifyingDropoffs(trips, day, minTrips))
  {
    var sorted := DayCounts(trips, day);
    KeptAtLeast(sorted, trips, OnDay(day), DropoffKey, minTrips, location);
  }

  lemma KeptAtLeast<K(!new)>(gs: seq<Group<K>>, trips: seq<Trip>, s: Selection, key: Trip -> Option<K>, m: int, k: K)
    requires CountsExact(gs, trips, s, key) && k in Keys(gs) && CountWith(trips, s, key, k) >= m
    ensures k in Keys(AtLeast(gs, m))
  {
    var j :| 0 <= j < |gs| && gs[j].key == k;
    AtLeastKeeps(gs, m, j);
  }

  /** `least_busy_locations_by_day`: the first ten qualifying drop-offs: at
      most ten rows, each with at least `min_trips` trips on the day and its
      exact count, least visited first. */
  function LeastBusy(trips: seq<Trip>, day: string, minTrips: int): (r: seq<Group<string>>)
    ensures |r| <= LeastBusyLimit
    ensures forall i :: 0 <= i < |r| ==> r[i].count >= minTrips
    ensures Ascending(r) && DistinctKeys(r)
    ensures CountsExact(r, trips, OnDay(day), DropoffKey)
  {
    var kept := QualifyingDropoffs(trips, day, minTrips);
    var r := Head(kept, LeastBusyLimit);
    PrefixKeeps(r, kept, trips, OnDay(day), DropoffKey);
    r
  }

  /** A location with enough trips that is missing from the least-busy list
      was left out only because the list is full of locations visited no
      more often. */
  lemma LeastBusyAreLeast(trips: seq<Trip>, day: string, minTrips: int, location: string)
    requires CountWith(trips, OnDay(day), DropoffKey, location) >= minTrips
    requires CountWith(trips, OnDay(day), DropoffKey, location) > 0
    requires location !in Keys(LeastBusy(trips, day, minTrips))
    ensures |LeastBusy(trips, day, minTrips)| == LeastBusyLimit
    ensures forall g :: g in LeastBusy(trips, day, minTrips) ==>
      g.count <= CountWith(trips, OnDay(day), DropoffKey, location)
  {
    var kept := QualifyingDropoffs(trips, day, minTrips);
    var r := LeastBusy(trips, day, minTrips);
    assert r == Head(kept, LeastBusyLimit);
    QualifyingHas(trips, day, minTrips, location);
    var k :| 0 <= k < |kept| && kept[k].key == location;
    var g := kept[k];
    assert g.count == CountWith(trips, OnDay(day), DropoffKey, location);
    assert g !in r;
    HeadFull(kept, LeastBusyLimit, g);
    HeadDominates(kept, LeastBusyLimit, ByCount, g);
  }

  /** `trips_to_specific_location`: trips per calendar day to drop-offs
      matching the location, in increasing date order, adding up to the
      number of matching rows that have a date (all of them when every row
      has a trip time). */
  function TripsToLocation(trips: seq<Trip>, location: string): (r: seq<Group<int>>)
    ensures StrictlyByKey(r)
    ensures CountsExact(r, trips, LocationLike(location), DateOf)
    ensures forall d :: d in Keys(r) <==> CountWith(trips, LocationLike(location), DateOf, d) > 0
    ensures Total(r) == CountKeyed(trips, LocationLike(location), DateOf) <= Count(trips, LocationLike(location))
    ensures AllTimed(trips) ==> Total(r) == Count(trips, LocationLike(location))
  {
    KeyedAtMost(trips, LocationLike(location), DateOf);
    assert AllTimed(trips) ==> CountKeyed(trips, LocationLike(location), DateOf) == Count(trips, LocationLike(location)) by {
      if AllTimed(trips) {
        KeyedAll(trips, LocationLike(location), DateOf);
      }
    }
    OrderedCount(trips, LocationLike(location), DateOf)
  }

  /** `age_distribution_at_location`: riders per age band at drop-offs
      matching the location, most common band first; every key is one of
      the bands. */
  function AgeDistribution(trips: seq<Trip>, location: string): (r: seq<Group<string>>)
    ensures Descending(r) && DistinctKeys(r)
    ensures CountsExact(r, trips, LocationLike(location), AgeKey)
    ensures forall i :: 0 <= i < |r| ==> r[i].key in AgeBuckets
    ensures forall b :: b in Keys(r) <==> CountWith(trips, LocationLike(location), AgeKey, b) > 0
    ensures Total(r) == Count(trips, LocationLike(location))
  {
    var gs := CountBy(trips, LocationLike(location), AgeKey);
    KeyedAll(trips, LocationLike(location), AgeKey);
    CountByExact(trips, LocationLike(location), AgeKey);
    var r := SortBy(gs, ByCountDescending);
    SortExact(gs, ByCountDescending, trips, LocationLike(location), AgeKey);
    SortKeepsKeys(gs, ByCountDescending);
    DescendingOfSorted(r);
    forall i | 0 <= i < |r| ensures r[i].key in AgeBuckets {
      KeyOfCounted(trips, LocationLike(location), AgeKey, r[i].key);
    }
    r
  }

  /** A counted key is the key of some selected row. */
  lemma {:induction false} KeyOfCounted<K>(trips: seq<Trip>, s: Selection, key: Trip -> Option<K>, k: K)
    requires CountWith(trips, s, key, k) > 0
    ensures exists t :: t in trips && Keeps(s, t) && key(t) == Some(k)
  {
    var init, last := trips[..|trips| - 1], trips[|trips| - 1];
    if Keeps(s, last) && key(last) == Some(k) {
      assert last in trips;
    } else {
      KeyOfCounted(init, s, key, k);
      var t :| t in init && Keeps(s, t) && key(t) == Some(k);
      assert t in trips;
    }
  }

  /** `busiest_hours_by_location`: trips per hour to drop-offs matching the
      location, busiest hour first, all hours kept, adding up to the number
      of matching rows that have an hour (all of them when every row has a
      trip time). */
  function BusiestHours(trips: seq<Trip>, location: string): (r: seq<Group<int>>)
    ensures Descending(r) && DistinctKeys(r)
    ensures CountsExact(r, trips, LocationLike(location), HourOf)
    ensures forall h :: h in Keys(r) <==> CountWith(trips, LocationLike(location), HourOf, h) > 0
    ensures Total(r) == CountKeyed(trips, LocationLike(location), HourOf) <= Count(trips, LocationLike(location))
    ensures AllTimed(trips) ==> Total(r) == Count(trips, LocationLike(location))
  {
    KeyedAtMost(trips, LocationLike(location), HourOf);
    assert AllTimed(trips) ==> CountKeyed(trips, LocationLike(location), HourOf) == Count(trips, LocationLike(location)) by {
      if AllTimed(trips) {
        KeyedAll(trips, LocationLike(location), HourOf);
      }
    }
    var gs := CountBy(trips, LocationLike(location), HourOf);
    CountByExact(trips, LocationLike(location), HourOf);
    var r := SortBy(gs, ByCountDescending);
    SortExact(gs, ByCountDescending, trips, LocationLike(location), HourOf);
    SortKeepsKeys(gs, ByCountDescending);
    DescendingOfSorted(r);
    r
  }

  /* ---------------------------------------------------------------------
     The location filter
     --------------------------------------------------------------------- */

  /** The location filter ignores the case of the query. */
  lemma LocationIgnoresCase(location: string, t: Trip)
    ensures Keeps(LocationLike(Lower(location)), t) == Keeps(LocationLike(location), t)
  {
    LowerIdempotent(location);
  }

  /** An empty query keeps every row, and a row's own simplified drop-off
      name (in any case) always finds it. */
  lemma LocationMatchesOwnName(t: Trip)
    ensures Keeps(LocationLike(""), t)
    ensures Keeps(LocationLike(DropoffOf(t)), t)
  {
    ContainsEmpty(Lower(DropoffOf(t)));
    var l := Lower(DropoffOf(t));
    assert IsPrefix(l, l[0..]);
  }
}

=== FILE: router.dfy ===
/** The intent router: turns a question and the recent conversation into a
    routing decision, through one language-model call wrapped in retries,
    and memoises decisions in a cache keyed by the normalised question and
    the history length.

    Everything outside the process is a parameter: whether the model client
    exists, what the model answers on each attempt, and what `json.loads`
    makes of an argument payload. The module-level cache is threaded in and
    out of `Route` as a map. */
module Router {
  import opened Options
  import opened Text
  import Catalog

  /* ---------------------------------------------------------------------
     JSON values and the function schemas handed to the model
     --------------------------------------------------------------------- */

  /** A value `json.loads` can produce (numbers are integers here). */
  datatype Json =
    | JNull
    | JBool(b: bool)
    | JNumber(n: int)
    | JString(s: string)
    | JArray(items: seq<Json>)
    | JObject(fields: map<string, Json>)

  const EmptyObject: Json := JObject(map[])

  datatype ParamType = StringType | IntegerType

  datatype PropertySchema = PropertySchema(name: string, paramType: ParamType, description: string)

  /** One entry of the list `get_openai_functions` returns. */
  datatype FunctionSchema = FunctionSchema(
    name: string,
    description: string,
    properties: seq<PropertySchema>,
    required: seq<string>)

  /** The parameter type read off a signature description: "str" anywhere
      wins, otherwise "int" anywhere, otherwise string. */
  function InferType(desc: string): (t: ParamType)
    ensures t == IntegerType <==> !Contains(desc, "str") && Contains(desc, "int")
  {
    if Contains(desc, "str") then StringType
    else if Contains(desc, "int") then IntegerType
    else StringType
  }

  function SchemaOf(e: Catalog.Entry): FunctionSchema {
    var sig := e.1.signature;
    FunctionSchema(
      e.0,
      e.1.description,
      seq(|sig|, j requires 0 <= j < |sig| => PropertySchema(sig[j].0, InferType(sig[j].1), sig[j].1)),
      Catalog.EntryKeys(sig))
  }

  /** `get_openai_functions` over any registry: one schema per entry, in
      order, with one property per signature parameter, in order, typed by
      `InferType`, and every parameter listed as required. */
  function SchemasOf(entries: seq<Catalog.Entry>): (r: seq<FunctionSchema>)
    ensures |r| == |entries|
    ensures forall i :: 0 <= i < |entries| ==>
      var sig := entries[i].1.signature;
      && r[i].name == entries[i].0
      && r[i].description == entries[i].1.description
      && r[i].required == Catalog.ParamNames(entries[i].1)
      && |r[i].properties| == |sig|
      && forall j :: 0 <= j < |sig| ==>
        && r[i].properties[j].name == sig[j].0
        && r[i].properties[j].description == sig[j].1
        && (r[i].properties[j].paramType == IntegerType <==> !Contains(sig[j].1, "str") && Contains(sig[j].1, "int"))
  {
    seq(|entries|, i requires 0 <= i < |entries| => SchemaOf(entries[i]))
  }

  function OpenAiFunctions(): seq<FunctionSchema> {
    SchemasOf(Catalog.Registry)
  }

  /** A property is required exactly when it is a property: nothing the
      registry calls optional is left out of `required`. */
  lemma AllParametersRequired(entries: seq<Catalog.Entry>, i: nat, p: string)
    requires i < |entries|
    ensures p in SchemasOf(entries)[i].required <==> exists j :: 0 <= j < |entries[i].1.signature| && SchemasOf(entries)[i].properties[j].name == p
  {
    var r := SchemasOf(entries)[i];
    var sig := entries[i].1.signature;
    if p in r.required {
      var j :| 0 <= j < |r.required| && r.required[j] == p;
      assert r.properties[j].name == p;
    }
  }

  /* ---------------------------------------------------------------------
     `_retry_call`
     --------------------------------------------------------------------- */

  /** What one call of the wrapped function does. */
  datatype Attempt<T> = Succeeded(value: T) | Raised(error: string)

  /** How `_retry_call` ends: it returns a value, re-raises the last error,
      or (with no attempts allowed) falls off the end and returns `None`. */
  datatype RetryOutcome<T> = Returned(value: T) | Reraised(error: string) | NoneReturned

  datatype RetryResult<T> = RetryResult(outcome: RetryOutcome<T>, calls: nat)

  function RetryFrom<T>(call: nat -> Attempt<T>, attempt: nat, maxRetries: int, lastError: Option<string>): (r: RetryResult<T>)
    requires forall j :: 0 <= j < attempt ==> call(j).Raised?
    requires attempt == 0 <==> lastError.None?
    requires attempt > 0 ==> attempt <= maxRetries && lastError == Some(call(attempt - 1).error)
    ensures attempt <= r.calls
    ensures r.calls <= (if maxRetries > attempt then maxRetries else attempt)
    ensures r.outcome.Returned? ==> r.calls >= 1 && call(r.calls - 1) == Succeeded(r.outcome.value)
    ensures forall j :: 0 <= j < r.calls && !(r.outcome.Returned? && j == r.calls - 1) ==> call(j).Raised?
    ensures r.outcome.Reraised? ==> r.calls == maxRetries > 0 && r.outcome.error == call(maxRetries - 1).error
    ensures r.outcome.NoneReturned? ==> r.calls == 0 && maxRetries <= 0
    ensures !r.outcome.Returned? ==> r.calls >= maxRetries
    decreases maxRetries - attempt
  {
    if attempt >= maxRetries then
      match lastError
      case Some(e) => RetryResult(Reraised(e), attempt)
      case None => RetryResult(NoneReturned, attempt)
    else
      match call(attempt)
      case Succeeded(v) => RetryResult(Returned(v), attempt + 1)
      case Raised(e) => RetryFrom(call, attempt + 1, maxRetries, Some(e))
  }

  /** `_retry_call(fn, max_retries)`: at most `max_retries` calls; the first
      success is returned, and it is returned exactly when some call among
      the first `max_retries` succeeds; if all of them fail the last error
      is re-raised. */
  function RetryCall<T>(call: nat -> Attempt<T>, maxRetries: int): (r: RetryResult<T>)
    ensures r.calls <= (if maxRetries > 0 then maxRetries else 0)
    ensures r.outcome.Returned? <==> exists j :: 0 <= j < maxRetries && call(j).Succeeded?
    ensures r.outcome.Returned? ==> r.calls >= 1 && call(r.calls - 1) == Succeeded(r.outcome.value)
    ensures forall j :: 0 <= j < r.calls && !(r.outcome.Returned? && j == r.calls - 1) ==> call(j).Raised?
    ensures r.outcome.Reraised? <==> maxRetries > 0 && forall j :: 0 <= j < maxRetries ==> call(j).Raised?
    ensures r.outcome.Reraised? ==> r.calls == maxRetries && r.outcome.error == call(maxRetries - 1).error
    ensures r.outcome.NoneReturned? <==> maxRetries <= 0
  {
    RetryFrom(call, 0, maxRetries, None)
  }

  function Pow2(i: nat): (p: nat)
    ensures p >= 1
  {
    if i == 0 then 1 else 2 * Pow2(i - 1)
  }

  /** The calls that failed: each is followed by a sleep, the last one too. */
  function FailedCalls<T>(r: RetryResult<T>): nat {
    if r.outcome.Returned? && r.calls > 0 then r.calls - 1 else r.calls
  }

  /** The sleeps after `failures` failed calls: after failed call `i`,
      `base_delay * 2^i` plus the jitter drawn for it. */
  ghost function Sleeps(failures: nat, baseDelay: real, jitter: nat -> real): (s: seq<real>)
    ensures |s| == failures
  {
    if failures == 0 then [] else Sleeps(failures - 1, baseDelay, jitter) + [baseDelay * Pow2(failures - 1) as real + jitter(failures - 1)]
  }

  ghost function SumReals(s: seq<real>): real {
    if |s| == 0 then 0.0 else SumReals(s[..|s| - 1]) + s[|s| - 1]
  }

  lemma SleepsStep(k: nat, baseDelay: real, jitter: nat -> real)
    requires k > 0
    ensures SumReals(Sleeps(k, baseDelay, jitter))
         == SumReals(Sleeps(k - 1, baseDelay, jitter)) + (baseDelay * Pow2(k - 1) as real + jitter(k - 1))
  {
    var s := Sleeps(k, baseDelay, jitter);
    assert s[..|s| - 1] == Sleeps(k - 1, baseDelay, jitter);
  }

  lemma Doubling(b: real, p: real)
    ensures b * (2.0 * p - 1.0) == b * (p - 1.0) + b * p
  {
  }

  /** The backoff after `k` failed calls is at least `base*(2^k - 1)`
      when no jitter is negative. */
  lemma {:induction false} SleepLowerBound(k: nat, baseDelay: real, jitter: nat -> real)
    requires forall i :: 0.0 <= jitter(i)
    ensures baseDelay * (Pow2(k) - 1) as real <= SumReals(Sleeps(k, baseDelay, jitter))
  {
    if k > 0 {
      SleepLowerBound(k - 1, baseDelay, jitter);
      SleepsStep(k, baseDelay, jitter);
      var p := Pow2(k - 1) as real;
      assert (Pow2(k) - 1) as real == 2.0 * p - 1.0;
      assert (Pow2(k - 1) - 1) as real == p - 1.0;
      Doubling(baseDelay, p);
      assert 0.0 <= jitter(k - 1);
    }
  }

  /** The backoff after `k` failed calls exceeds `base*(2^k - 1)` by at most
      `0.2*k` when no jitter exceeds 0.2. */
  lemma {:induction false} SleepUpperBound(k: nat, baseDelay: real, jitter: nat -> real)
    requires forall i :: jitter(i) <= 0.2
    ensures SumReals(Sleeps(k, baseDelay, jitter)) <= baseDelay * (Pow2(k) - 1) as real + 0.2 * k as real
  {
    if k > 0 {
      SleepUpperBound(k - 1, baseDelay, jitter);
      SleepsStep(k, baseDelay, jitter);
      var p := Pow2(k - 1) as real;
      assert (Pow2(k) - 1) as real == 2.0 * p - 1.0;
      assert (Pow2(k - 1) - 1) as real == p - 1.0;
      Doubling(baseDelay, p);
      assert jitter(k - 1) <= 0.2;
    }
  }

  /** Failing twice and then succeeding: three calls, the third call's value,
      two sleeps, and at least `base_delay * (1 + 2)` of backoff. */
  lemma RetryTwoFailuresThenSuccess<T>(call: nat -> Attempt<T>, baseDelay: real, jitter: nat -> real)
    requires call(0).Raised? && call(1).Raised? && call(2).Succeeded?
    requires forall i :: 0.0 <= jitter(i) <= 0.2
    ensures RetryCall(call, 3) == RetryResult(Returned(call(2).value), 3)
    ensures |Sleeps(FailedCalls(RetryCall(call, 3)), baseDelay, jitter)| == 2
    ensures baseDelay * 3.0 <= SumReals(Sleeps(FailedCalls(RetryCall(call, 3)), baseDelay, jitter))
  {
    var r := RetryCall(call, 3);
    assert r.calls == 3;
    SleepLowerBound(2, baseDelay, jitter);
    assert Pow2(2) == 4;
  }

  /* ---------------------------------------------------------------------
     Messages sent to the model
     --------------------------------------------------------------------- */

  datatype Role = SystemRole | UserRole | AssistantRole

  datatype ChatMessage = ChatMessage(role: Role, content: string)

  /** A history entry: a (question, answer) 2-tuple, or anything else. */
  datatype HistoryEntry = Exchange(question: string, answer: string) | NotAPair

  const HistoryWindow: nat := 6

  /** `history[-6:]`. */
  function Window(history: seq<HistoryEntry>): (w: seq<HistoryEntry>)
    ensures |w| == (if |history| < HistoryWindow then |history| else HistoryWindow)
    ensures w == history[|history| - |w|..]
  {
    if |history| <= HistoryWindow then history else history[|history| - HistoryWindow..]
  }

  /** The well-formed pairs among `entries`, in order. */
  function Exchanges(entries: seq<HistoryEntry>): seq<(string, string)> {
    if |entries| == 0 then []
    else
      (match entries[0]
       case Exchange(q, a) => [(q, a)]
       case NotAPair => [])
      + Exchanges(entries[1..])
  }

  /** A user message then an assistant message for every pair, in order. */
  function PairMessages(pairs: seq<(string, string)>): (ms: seq<ChatMessage>)
    ensures |ms| == 2 * |pairs|
    ensures forall k :: 0 <= k < |pairs| ==>
      && ms[2 * k] == ChatMessage(UserRole, pairs[k].0)
      && ms[2 * k + 1] == ChatMessage(AssistantRole, pairs[k].1)
  {
    if |pairs| == 0 then []
    else
      var last := pairs[|pairs| - 1];
      PairMessages(pairs[..|pairs| - 1]) + [ChatMessage(UserRole, last.0), ChatMessage(AssistantRole, last.1)]
  }

  const SystemPrompt: string := @"You are Assistentee, a friendly and intelligent rideshare data assistant for Austin, Texas. 

You help users understand ride patterns, demographics, and trends through natural conversation and smart data analysis.

Your approach:
1. Understand the user's intent - Even if they use vague, slang, or indirect language
2. Reason through the problem - Think step-by-step about what they're really asking  
3. Choose the best function - If one exists that can help, use it with appropriate parameters
4. Provide friendly responses - Always be conversational and helpful
5. Offer suggestions - Guide users to better questions when appropriate
6. Remember conversation context - If the user is answering a clarifying question, combine it with previous context

Be flexible with language - understand slang, typos, and casual speech. If no function fits perfectly, provide a helpful natural response.

IMPORTANT: If the user is providing a follow-up answer (like ""Friday"" after you asked ""Which day?""), combine it with the previous question to understand the full intent."

  /** The chat request: the system prompt, the pairs among the last six
      history entries, and the question as the final user message. */
  function BuildMessages(systemPrompt: string, question: string, history: seq<HistoryEntry>): (ms: seq<ChatMessage>)
    ensures var pairs := Exchanges(Window(history));
      && |ms| == 2 + 2 * |pairs|
      && ms[0] == ChatMessage(SystemRole, systemPrompt)
      && ms[|ms| - 1] == ChatMessage(UserRole, question)
      && forall k :: 0 <= k < |pairs| ==>
        && ms[2 * k + 1] == ChatMessage(UserRole, pairs[k].0)
        && ms[2 * k + 2] == ChatMessage(AssistantRole, pairs[k].1)
  {
    var body := PairMessages(Exchanges(Window(history)));
    var ms := [ChatMessage(SystemRole, systemPrompt)] + body + [ChatMessage(UserRole, question)];
    Enclosed(ChatMessage(SystemRole, systemPrompt), body, ChatMessage(UserRole, question));
    ms
  }

  lemma Enclosed<T>(first: T, body: seq<T>, last: T)
    ensures var s := [first] + body + [last];
      && |s| == |body| + 2 && s[0] == first && s[|s| - 1] == last
      && forall i :: 0 <= i < |body| ==> s[i + 1] == body[i]
  {
  }

  /** What the chat-completion call is given besides the messages. */
  datatype Request = Request(
    model: string,
    messages: seq<ChatMessage>,
    functions: seq<FunctionSchema>,
    functionCall: string,
    temperature: real,
    timeout: int)

  /** The router's fixed inputs: the system prompt, the function schemas
      offered to the model, and the names a chosen function must have to be
      accepted. `Standard` holds the values of the module. */
  datatype Config = Config(systemPrompt: string, functions: seq<FunctionSchema>, registered: set<string>)

  const Standard: Config := Config(SystemPrompt, OpenAiFunctions(), Catalog.Names())

  /** In the module's configuration (`Standard`) the model is offered
      exactly the registered functions: one schema per registry entry, and
      a name is registered exactly when some schema carries it. */
  lemma StandardOffersRegistered()
    ensures |OpenAiFunctions()| == |Catalog.Registry|
    ensures forall n :: n in Catalog.Names() <==> exists i :: 0 <= i < |OpenAiFunctions()| && OpenAiFunctions()[i].name == n
  {
    var fs := OpenAiFunctions();
    assert forall i :: 0 <= i < |fs| ==> fs[i].name == Catalog.Registry[i].0;
  }

  function RequestFor(config: Config, question: string, history: seq<HistoryEntry>): Request {
    Request("gpt-4", BuildMessages(config.systemPrompt, question, history), config.functions, "auto", 0.3, 30)
  }

  /* ---------------------------------------------------------------------
     Model replies and routing decisions
     --------------------------------------------------------------------- */

  datatype FunctionCallPayload = FunctionCallPayload(name: string, arguments: string)

  /** `response.choices[i].message`; an absent `content` is the empty string
      (both are falsy to Python's `or`). */
  datatype AssistantMessage = AssistantMessage(functionCall: Option<FunctionCallPayload>, content: string)

  datatype Response = Response(choices: seq<AssistantMessage>)

  /** The world outside the router: whether a client was built from an API
      key, what the model does on attempt `i` of a request, and `json.loads`
      (`None` where it raises). */
  datatype ModelService = ModelService(
    clientPresent: bool,
    complete: (Request, nat) -> Attempt<Response>,
    parseJson: string -> Option<Json>)

  datatype Kind = FunctionCall | NaturalResponse

  /** The router's result dictionary. */
  datatype Decision = Decision(
    kind: Kind,
    functionName: Option<string>,
    parameters: Json,
    thought: string,
    confidence: real,
    response: string,
    suggestions: seq<string>)

  const ErrorSuggestions: seq<string> := [
    "Try rephrasing your question",
    "Ask about a different day or location",
    "Ask about busiest times or quietest days"
  ]

  const CallSuggestions: seq<string> := [
    "What about other days?",
    "How about different age groups?",
    "What are the busiest times?"
  ]

  const NaturalSuggestions: seq<string> := [
    "What are the most popular dropoff locations?",
    "When do large groups ride most?",
    "What's the age distribution of riders?"
  ]

  const Greeting: string := "I'm here to help you analyze Fetii rideshare data! What would you like to know?"

  /** What every decision the router hands out looks like: a function call
      names a function and has confidence 0.9; a natural response names no
      function, has no parameters and confidence 0.8 or 0.1; there is always
      a reply text and three suggestions. */
  predicate WellShaped(d: Decision) {
    && (d.kind == FunctionCall <==> d.functionName.Some?)
    && (d.kind == FunctionCall ==> d.confidence == 0.9)
    && (d.kind == NaturalResponse ==> (d.confidence == 0.8 || d.confidence == 0.1) && d.parameters == EmptyObject)
    && d.response != []
    && |d.suggestions| == 3
  }

  /** A well-shaped decision whose function, if any, is a registered one. */
  predicate WellFormedDecision(config: Config, d: Decision) {
    && WellShaped(d)
    && (d.functionName.Some? ==> d.functionName.value in config.registered)
  }

  /** `_structured_error`: the failure decision, carrying the diagnostic as
      its thought and the user-facing text as its response. */
  function StructuredError(message: string, userFallback: string): (d: Decision)
    ensures userFallback != [] ==> WellShaped(d)
    ensures d.functionName == None && d.parameters == EmptyObject
    ensures d.kind == NaturalResponse && d.confidence == 0.1
    ensures d.thought == message && d.response == userFallback
  {
    Decision(NaturalResponse, None, EmptyObject, message, 0.1, userFallback, ErrorSuggestions)
  }

  const NoClientDecision: Decision :=
    StructuredError("OPENAI client not initialized (missing API key)",
                    "I'm temporarily unavailable. Please set the API key and try again.")

  function RouterError(detail: string): Decision {
    StructuredError("GPT Router v3 Error: " + detail,
                    "Sorry, I'm having trouble processing that right now. Please try again in a moment.")
  }

  /** The decision for a model reply that calls a registered function: that
      function with the parsed arguments, confidence 0.9. */
  function CallDecision(question: string, name: string, args: Json): (d: Decision)
    ensures WellShaped(d)
    ensures d.kind == FunctionCall && d.functionName == Some(name) && d.parameters == args
  {
    Decision(FunctionCall, Some(name), args,
             "User asked: '" + question + "'. I'm calling " + name + " to analyze this data.",
             0.9,
             "Let me analyze that for you using " + ReplaceChar(name, '_', ' ') + "!",
             CallSuggestions)
  }

  /** The decision for any other reply: a natural response showing the
      reply's text, or the greeting when the text is empty. */
  function NaturalDecision(question: string, content: string): (d: Decision)
    ensures WellShaped(d) && d.confidence == 0.8
    ensures d.kind == NaturalResponse && d.functionName == None
    ensures content != [] ==> d.response == content
  {
    Decision(NaturalResponse, None, EmptyObject,
             "User asked: '" + question + "'. This doesn't require specific data analysis.",
             0.8,
             if content != [] then content else Greeting,
             NaturalSuggestions)
  }

  /** `json.loads(arguments)`, or `{}` when it raises. */
  function ParseArguments(parseJson: string -> Option<Json>, arguments: string): Json {
    parseJson(arguments).GetOr(EmptyObject)
  }

  /** The body of the `try` block after the model call has ended: the
      decision made from how `_retry_call` ended. Exceptions (an exhausted
      retry, a `None` result, an empty `choices` list) become the router's
      error decision. */
  function Interpret(config: Config, question: string, outcome: RetryOutcome<Response>, parseJson: string -> Option<Json>): (d: Decision)
    ensures WellFormedDecision(config, d)
  {
    match outcome
    case Reraised(e) => RouterError(e)
    case NoneReturned => RouterError("'NoneType' object has no attribute 'choices'")
    case Returned(resp) =>
      if |resp.choices| == 0 then RouterError("list index out of range")
      else
        var msg := resp.choices[0];
        if msg.functionCall.Some? && msg.functionCall.value.name in config.registered then
          CallDecision(question, msg.functionCall.value.name, ParseArguments(parseJson, msg.functionCall.value.arguments))
        else
          NaturalDecision(question, msg.content)
  }

  /* ---------------------------------------------------------------------
     The cache and the router
     --------------------------------------------------------------------- */

  type Cache = map<string, Decision>

  /** `f"{question.lower().strip()}_{len(history or [])}"`: the key reads
      back as exactly the normalised question and the history length. */
  function CacheKey(question: string, historyLength: nat): (k: string)
    ensures SplitKey(k) == Some((Strip(Lower(question)), historyLength))
  {
    var a, d := Strip(Lower(question)), NatToString(historyLength);
    var k := a + "_" + d;
    DigitSuffixOfKey(a, d);
    assert k[..|k| - |d| - 1] == a;
    assert k[|k| - |d|..] == d;
    k
  }

  /** Length of the longest all-digit suffix. */
  function DigitSuffix(s: string): (n: nat)
    ensures n <= |s|
  {
    if |s| > 0 && IsDigit(s[|s| - 1]) then 1 + DigitSuffix(s[..|s| - 1]) else 0
  }

  /** Reads a cache key back into its normalised question and history
      length: the digits after the last underscore. */
  function SplitKey(key: string): Option<(string, nat)> {
    var n := DigitSuffix(key);
    if n >= 1 && |key| > n && key[|key| - n - 1] == '_' then
      assert AllDigits(key[|key| - n..]) by { DigitSuffixDigits(key); }
      Some((key[..|key| - n - 1], ParseDigits(key[|key| - n..])))
    else None
  }

  lemma {:induction false} DigitSuffixDigits(s: string)
    ensures AllDigits(s[|s| - DigitSuffix(s)..])
  {
    if |s| > 0 && IsDigit(s[|s| - 1]) {
      var init := s[..|s| - 1];
      DigitSuffixDigits(init);
      assert s[|s| - DigitSuffix(s)..] == init[|init| - DigitSuffix(init)..] + [s[|s| - 1]];
    }
  }

  lemma {:induction false} DigitSuffixOfKey(a: string, d: string)
    requires AllDigits(d)
    ensures DigitSuffix(a + "_" + d) == |d|
    decreases |d|
  {
    var k := a + "_" + d;
    if |d| > 0 {
      assert k[..|k| - 1] == a + "_" + d[..|d| - 1];
      DigitSuffixOfKey(a, d[..|d| - 1]);
    } else {
      assert k[|k| - 1] == '_';
    }
  }

  /** Two calls share a cache entry exactly when their questions agree after
      lower-casing and stripping and their histories have the same length. */
  lemma CacheKeyInjective(q1: string, n1: nat, q2: string, n2: nat)
    ensures CacheKey(q1, n1) == CacheKey(q2, n2) <==> Strip(Lower(q1)) == Strip(Lower(q2)) && n1 == n2
  {
  }

  /** Case and outer white space do not change the cache key. */
  lemma CacheKeyNormalises(question: string, w1: string, w2: string, historyLength: nat)
    requires AllSpace(w1) && AllSpace(w2)
    ensures CacheKey(w1 + question + w2, historyLength) == CacheKey(question, historyLength)
    ensures CacheKey(Lower(question), historyLength) == CacheKey(question, historyLength)
  {
    LowerAppend(w1 + question, w2);
    LowerAppend(w1, question);
    LowerKeepsSpace(w1);
    LowerKeepsSpace(w2);
    StripPadded(w1, Lower(question), w2);
    LowerIdempotent(question);
  }

  const MaxRetries: int := 3

  /** How the retried model call ends for this question and history. */
  function ModelReply(config: Config, question: string, history: seq<HistoryEntry>, service: ModelService): RetryOutcome<Response> {
    RetryCall(Attempts(service, RequestFor(config, question, history)), MaxRetries).outcome
  }

  /** The model call for one request, as a function of the attempt number. */
  function Attempts(service: ModelService, request: Request): nat -> Attempt<Response> {
    (i: nat) => service.complete(request, i)
  }

  /** The decision made when the key is not cached. */
  function FreshDecision(config: Config, question: string, history: seq<HistoryEntry>, service: ModelService): (d: Decision)
    ensures WellFormedDecision(config, d)
  {
    Interpret(config, question, ModelReply(config, question, history, service), service.parseJson)
  }

  predicate WellFormedCache(config: Config, cache: Cache) {
    forall k :: k in cache ==> WellFormedDecision(config, cache[k])
  }

  /** `res` answers `key` from `cache`: the decision is what the cache
      afterwards holds under `key`, the cache gained at most that key, and
      no entry already there changed. */
  predicate Answers(cache: Cache, key: string, res: (Decision, Cache)) {
    && key in res.1
    && res.1[key] == res.0
    && res.1.Keys == cache.Keys + {key}
    && forall k :: k in cache ==> res.1[k] == cache[k]
  }

  /** `enhanced_gpt_route_v3`: the decision for `question` and the cache
      afterwards. Without a client the fixed error comes back and the cache
      is left alone; otherwise the key is answered from the cache, or the
      model's decision is stored under it and nothing else changes. */
  function Route(config: Config, question: string, history: seq<HistoryEntry>, service: ModelService, cache: Cache): (res: (Decision, Cache))
    ensures !service.clientPresent ==> res == (NoClientDecision, cache)
    ensures service.clientPresent ==> Answers(cache, CacheKey(question, |history|), res)
  {
    if !service.clientPresent then (NoClientDecision, cache)
    else
      var key := CacheKey(question, |history|);
      if key in cache then
        HitAnswers(cache, key);
        (cache[key], cache)
      else
        var d := FreshDecision(config, question, history, service);
        StoreAnswers(cache, key, d);
        (d, cache[key := d])
  }

  lemma HitAnswers(cache: Cache, key: string)
    requires key in cache
    ensures Answers(cache, key, (cache[key], cache))
  {
  }

  lemma StoreAnswers(cache: Cache, key: string, d: Decision)
    requires key !in cache
    ensures Answers(cache, key, (d, cache[key := d]))
  {
  }

  /** Every decision the router hands out, and every decision its cache
      holds, is well formed for its configuration. */
  lemma RouteKeepsCacheWellFormed(config: Config, question: string, history: seq<HistoryEntry>, service: ModelService, cache: Cache)
    requires WellFormedCache(config, cache)
    ensures var (d, c) := Route(config, question, history, service, cache);
      WellFormedDecision(config, d) && WellFormedCache(config, c)
  {
    var (d, c) := Route(config, question, history, service, cache);
    if service.clientPresent {
      forall k | k in c ensures WellFormedDecision(config, c[k]) {
        if k in cache {
          assert c[k] == cache[k];
        }
      }
    }
  }

  /** Without a client: the fixed 0.1-confidence natural response with no
      function and no parameters, whatever the cache holds, and the cache
      is unchanged. */
  lemma RouteWithoutClient(config: Config, question: string, history: seq<HistoryEntry>, service: ModelService, cache: Cache)
    requires !service.clientPresent
    ensures var (d, c) := Route(config, question, history, service, cache);
      && c == cache
      && d.kind == NaturalResponse && d.functionName == None && d.parameters == EmptyObject
      && d.confidence == 0.1
      && d.response == "I'm temporarily unavailable. Please set the API key and try again."
  {
  }

  /** A cached key is answered from the cache: the model is not consulted
      (any service gives the same answer) and the cache is unchanged. */
  lemma RouteCacheHit(config: Config, question: string, history: seq<HistoryEntry>, service: ModelService, cache: Cache)
    requires service.clientPresent && CacheKey(question, |history|) in cache
    ensures Route(config, question, history, service, cache) == (cache[CacheKey(question, |history|)], cache)
  {
  }

  /** Asking again — with the same question up to case and outer white
      space, any history of the same length, and whatever the model would
      now say — returns the first decision and leaves the cache as it was. */
  lemma RouteIdempotent(config: Config, question: string, history: seq<HistoryEntry>, service: ModelService, cache: Cache,
                        question2: string, history2: seq<HistoryEntry>, service2: ModelService)
    requires service.clientPresent && service2.clientPresent
    requires Strip(Lower(question2)) == Strip(Lower(question)) && |history2| == |history|
    ensures var (d, c) := Route(config, question, history, service, cache);
      Route(config, question2, history2, service2, c) == (d, c)
  {
    CacheKeyInjective(question, |history|, question2, |history2|);
  }

  /** A registered function chosen by the model becomes a 0.9-confidence
      function call with the parsed arguments, or `{}` when they do not
      parse, and is stored under the key. */
  lemma RouteSelectsRegistered(config: Config, question: string, history: seq<HistoryEntry>, service: ModelService, cache: Cache,
                               msg: AssistantMessage, others: seq<AssistantMessage>)
    requires service.clientPresent && CacheKey(question, |history|) !in cache
    requires ModelReply(config, question, history, service) == Returned(Response([msg] + others))
    requires msg.functionCall.Some? && msg.functionCall.value.name in config.registered
    ensures var (d, c) := Route(config, question, history, service, cache);
      && d.kind == FunctionCall
      && d.functionName == Some(msg.functionCall.value.name)
      && d.confidence == 0.9
      && (service.parseJson(msg.functionCall.value.arguments).Some? ==> d.parameters == service.parseJson(msg.functionCall.value.arguments).value)
      && (service.parseJson(msg.functionCall.value.arguments).None? ==> d.parameters == EmptyObject)
      && c == cache[CacheKey(question, |history|) := d]
  {
    RouteMiss(config, question, history, service, cache);
    assert ([msg] + others)[0] == msg;
  }

  /** A function name outside the registry, or no function call at all,
      gives a 0.8-confidence natural response carrying the model's text, or
      the greeting when there is none; it is cached too. */
  lemma RouteNaturalResponse(config: Config, question: string, history: seq<HistoryEntry>, service: ModelService, cache: Cache,
                             msg: AssistantMessage, others: seq<AssistantMessage>)
    requires service.clientPresent && CacheKey(question, |history|) !in cache
    requires ModelReply(config, question, history, service) == Returned(Response([msg] + others))
    requires msg.functionCall.None? || msg.functionCall.value.name !in config.registered
    ensures var (d, c) := Route(config, question, history, service, cache);
      && d.kind == NaturalResponse
      && d.functionName == None
      && d.confidence == 0.8
      && d.response == (if msg.content != [] then msg.content else Greeting)
      && c == cache[CacheKey(question, |history|) := d]
  {
    RouteMiss(config, question, history, service, cache);
    assert ([msg] + others)[0] == msg;
  }

  /** A key that is not cached is answered by a fresh decision, which is
      stored under it. */
  lemma RouteMiss(config: Config, question: string, history: seq<HistoryEntry>, service: ModelService, cache: Cache)
    requires service.clientPresent && CacheKey(question, |history|) !in cache
    ensures var d := Interpret(config, question, ModelReply(config, question, history, service), service.parseJson);
      Route(config, question, history, service, cache) == (d, cache[CacheKey(question, |history|) := d])
  {
  }

  /** When every attempt raises, the last error becomes a 0.1-confidence
      error decision, which is cached: asking again returns it without a
      further model call. */
  lemma RouteRetriesExhausted(config: Config, question: string, history: seq<HistoryEntry>, service: ModelService, cache: Cache)
    requires service.clientPresent && CacheKey(question, |history|) !in cache
    requires forall i :: 0 <= i < MaxRetries ==> service.complete(RequestFor(config, question, history), i).Raised?
    ensures var (d, c) := Route(config, question, history, service, cache);
      && d == RouterError(service.complete(RequestFor(config, question, history), MaxRetries - 1).error)
      && d.kind == NaturalResponse && d.confidence == 0.1
      && c[CacheKey(question, |history|)] == d
  {
    var request := RequestFor(config, question, history);
    assert ModelReply(config, question, history, service) == Reraised(service.complete(request, MaxRetries - 1).error) by {
      AllAttemptsRaise(service, request);
    }
    RouteMiss(config, question, history, service, cache);
  }

  /** Any exception inside the `try` block, whether the retries are
      exhausted or the reply has no choices, gives the 0.1-confidence error
      decision carrying the exception's text, and that decision is cached. */
  lemma RouteExceptionsCached(config: Config, question: string, history: seq<HistoryEntry>, service: ModelService, cache: Cache)
    requires service.clientPresent && CacheKey(question, |history|) !in cache
    requires var reply := ModelReply(config, question, history, service);
      !(reply.Returned? && |reply.value.choices| > 0)
    ensures var reply := ModelReply(config, question, history, service);
      var (d, c) := Route(config, question, history, service, cache);
      && d.kind == NaturalResponse && d.confidence == 0.1
      && (reply.Reraised? ==> d == RouterError(reply.error))
      && (reply.Returned? ==> d == RouterError("list index out of range"))
      && c[CacheKey(question, |history|)] == d
  {
    RouteMiss(config, question, history, service, cache);
  }

  /** Three raising attempts make the retried call re-raise the last
      error. */
  lemma AllAttemptsRaise(service: ModelService, request: Request)
    requires forall i :: 0 <= i < MaxRetries ==> service.complete(request, i).Raised?
    ensures RetryCall(Attempts(service, request), MaxRetries).outcome == Reraised(service.complete(request, MaxRetries - 1).error)
  {
    var call := Attempts(service, request);
    assert forall i :: 0 <= i < MaxRetries ==> call(i).Raised?;
    var r := RetryCall(call, MaxRetries);
    assert r.outcome == Reraised(call(MaxRetries - 1).error);
  }
}

=== FILE: summary.dfy ===
/** The rule-based part of `natural_summary`: the fixed sentences chosen
    from the table's columns and the caller's context before any language
    model is asked. The model-written summary itself is not modelled; the
    function reports that it would be asked. */
module Summary {
  import opened Options
  import opened Text

  /** A table cell: text, an integer or a float. */
  datatype Cell = TextCell(text: string) | IntCell(n: int) | RealCell(r: real) {
    predicate IsNumber() { IntCell? || RealCell? }

    /** The cell's value as a number, for comparisons. */
    function Number(): real
      requires IsNumber()
    {
      if IntCell? then n as real else r
    }
  }

  /** How Python writes a float (`repr`), which this model takes as given. */
  type ShowReal = real -> string

  /** A data frame: column labels and rows of cells, one per column. */
  datatype Table = Table(columns: seq<string>, rows: seq<seq<Cell>>)

  predicate Rectangular(t: Table) {
    forall i :: 0 <= i < |t.rows| ==> |t.rows[i]| == |t.columns|
  }

  /** Why a rule raised instead of answering. */
  datatype Failure = MissingColumn(column: string) | NotNumeric(column: string)

  /** A fixed sentence, a hand-off to the model-written summary, or an
      exception that escapes `natural_summary`. */
  datatype Outcome = Rule(text: string) | ModelSummary | Raises(failure: Failure)

  /** Position of the first column labelled `name`. */
  function ColumnIndex(columns: seq<string>, name: string): (r: Option<nat>)
    ensures r.Some? <==> name in columns
    ensures r.Some? ==> r.value < |columns| && columns[r.value] == name && name !in columns[..r.value]
  {
    if |columns| == 0 then None
    else if columns[0] == name then Some(0)
    else
      match ColumnIndex(columns[1..], name)
      case None => None
      case Some(i) =>
        assert columns[..i + 1] == [columns[0]] + columns[1..][..i];
        Some(i + 1)
  }

  /** How an f-string shows a cell. */
  function CellText(c: Cell, show: ShowReal): string {
    match c
    case TextCell(s) => s
    case IntCell(n) => IntToString(n)
    case RealCell(r) => show(r)
  }

  /** The values of a numeric column, or `None` when one of its cells is
      text (pandas then refuses `idxmax`). */
  function NumberColumn(rows: seq<seq<Cell>>, col: nat): (r: Option<seq<real>>)
    requires forall i :: 0 <= i < |rows| ==> col < |rows[i]|
    ensures r.Some? <==> forall i :: 0 <= i < |rows| ==> rows[i][col].IsNumber()
    ensures r.Some? ==> |r.value| == |rows| && forall i :: 0 <= i < |rows| ==> r.value[i] == rows[i][col].Number()
  {
    if |rows| == 0 then Some([])
    else
      var rest := NumberColumn(rows[1..], col);
      if rows[0][col].IsNumber() && rest.Some? then
        Some([rows[0][col].Number()] + rest.value)
      else
        assert !rows[0][col].IsNumber() ==> !(forall i :: 0 <= i < |rows| ==> rows[i][col].IsNumber());
        assert rest.None? ==> !(forall i :: 0 <= i < |rows| ==> rows[i][col].IsNumber()) by {
          if rest.None? {
            var i :| 0 <= i < |rows[1..]| && !rows[1..][i][col].IsNumber();
            assert !rows[i + 1][col].IsNumber();
          }
        }
        None
  }

  /** pandas' `idxmax` on a non-empty numeric column: the first row holding
      the largest value. */
  function FirstMax(vs: seq<real>): (i: nat)
    requires |vs| > 0
    ensures i < |vs|
    ensures forall j :: 0 <= j < |vs| ==> vs[j] <= vs[i]
    ensures forall j :: 0 <= j < i ==> vs[j] < vs[i]
  {
    if |vs| == 1 then 0
    else
      var k := FirstMax(vs[..|vs| - 1]);
      if vs[|vs| - 1] > vs[k] then |vs| - 1 else k
  }

  predicate EndsWith(s: string, suffix: string) {
    |suffix| <= |s| && s[|s| - |suffix|..] == suffix
  }

  /** "h:00 PM" for a canonical `h` from 1 to 12. */
  predicate AfternoonText(s: string) {
    EndsWith(s, ":00 PM") && Canonical(s[..|s| - 6]) && 1 <= ParseDigits(s[..|s| - 6]) <= 12
  }

  /** "h:00" for a canonical `h` below 12. */
  predicate MorningText(s: string) {
    EndsWith(s, ":00") && Canonical(s[..|s| - 3]) && ParseDigits(s[..|s| - 3]) < 12
  }

  /** Reads a formatted hour back: "h:00" is hour `h`, "h:00 PM" is hour
      `h + 12`, except that "12:00 PM" is noon. Nothing else is an hour. */
  function ReadHour(s: string): (r: Option<int>)
    ensures r.Some? ==> 0 <= r.value <= 23
    ensures AfternoonText(s) ==> r.Some? && r.value >= 12
    ensures !AfternoonText(s) && r.Some? ==> MorningText(s) && r.value < 12
  {
    if AfternoonText(s) then
      var n := ParseDigits(s[..|s| - 6]);
      Some(if n == 12 then 12 else n + 12)
    else if MorningText(s) then
      Some(ParseDigits(s[..|s| - 3]))
    else None
  }

  /** At most one text reads as a given hour, so the round trip in
      `FormatHour`'s contract fixes the text it writes. */
  lemma ReadHourInjective(s: string, t: string)
    requires ReadHour(s).Some? && ReadHour(s) == ReadHour(t)
    ensures s == t
  {
    if AfternoonText(s) {
      assert AfternoonText(t);
      var a, b := s[..|s| - 6], t[..|t| - 6];
      assert ParseDigits(a) == ParseDigits(b);
      CanonicalUnique(a, b);
      Suffixed(s, t, ":00 PM");
    } else {
      assert MorningText(s) && MorningText(t);
      CanonicalUnique(s[..|s| - 3], t[..|t| - 3]);
      Suffixed(s, t, ":00");
    }
  }

  lemma Suffixed(s: string, t: string, suffix: string)
    requires EndsWith(s, suffix) && EndsWith(t, suffix)
    requires s[..|s| - |suffix|] == t[..|t| - |suffix|]
    ensures s == t
  {
    assert s == s[..|s| - |suffix|] + suffix;
    assert t == t[..|t| - |suffix|] + suffix;
  }

  /** The peak hour as the summary writes it: morning hours as "h:00", noon
      as "12:00 PM", afternoon hours as "(h-12):00 PM". Every hour of the
      day reads back as itself, and carries " PM" exactly from noon on. */
  function FormatHour(h: int): (s: string)
    ensures 0 <= h <= 23 ==> ReadHour(s) == Some(h)
    ensures 0 <= h <= 23 ==> (EndsWith(s, " PM") <==> h >= 12)
  {
    if h < 12 then
      var s := IntToString(h) + ":00";
      assert 0 <= h ==> ReadHour(s) == Some(h) && !EndsWith(s, " PM") by {
        if 0 <= h {
          ReadMorning(h);
        }
      }
      s
    else if h > 12 then
      var s := IntToString(h - 12) + ":00 PM";
      assert h <= 23 ==> ReadHour(s) == Some(h) && EndsWith(s, " PM") by {
        if h <= 23 {
          ReadAfternoon(h);
        }
      }
      s
    else
      ReadNoon();
      "12:00 PM"
  }

  lemma ReadMorning(h: int)
    requires 0 <= h < 12
    ensures var s := IntToString(h) + ":00"; ReadHour(s) == Some(h) && !EndsWith(s, " PM")
  {
    var s := IntToString(h) + ":00";
    assert s[..|s| - 3] == IntToString(h);
    assert s[|s| - 1] == '0';
    assert !EndsWith(s, ":00 PM") by {
      if 6 <= |s| {
        assert s[|s| - 6..][5] == s[|s| - 1];
      }
    }
    assert !EndsWith(s, " PM") by {
      if 3 <= |s| {
        assert s[|s| - 3..][2] == s[|s| - 1];
      }
    }
  }

  lemma ReadAfternoon(h: int)
    requires 12 < h <= 23
    ensures var s := IntToString(h - 12) + ":00 PM"; ReadHour(s) == Some(h) && EndsWith(s, " PM")
  {
    var s := IntToString(h - 12) + ":00 PM";
    assert s[..|s| - 6] == IntToString(h - 12);
    assert s[|s| - 3..] == " PM";
  }

  lemma ReadNoon()
    ensures ReadHour("12:00 PM") == Some(12) && EndsWith("12:00 PM", " PM")
  {
    var s := "12:00 PM";
    assert s[..|s| - 6] == "12";
    assert Canonical("12");
    assert ParseDigits("12") == 12 by {
      assert "12"[..1] == "1";
    }
  }

  /** No two hours of the day are written alike. */
  lemma FormatHourInjective(a: int, b: int)
    requires 0 <= a <= 23 && 0 <= b <= 23
    ensures FormatHour(a) == FormatHour(b) <==> a == b
  {
  }

  /** The peak hour as the summary writes it when the column holds floats. */
  function FormatRealHour(h: real, show: ShowReal): string {
    if h < 12.0 then show(h) + ":00"
    else if h > 12.0 then show(h - 12.0) + ":00 PM"
    else "12:00 PM"
  }

  const NoService := "Sorry, LLM service is not available."
  const NoData := "No data found for this query."

  /** The context words, in the order `natural_summary` tries them. */
  const ContextWords: seq<string> := ["dropoff", "peak", "trip", "age", "group"]

  predicate Mentions(context: string, word: string) {
    Contains(context, word)
  }

  predicate MentionsNone(context: string) {
    forall k :: 0 <= k < |ContextWords| ==> !Mentions(context, ContextWords[k])
  }

  /** `natural_summary(df, context)` up to the point where the model would
      be asked. The cases are tried in order: no client, no rows, and then,
      for tables with a `trip_count` column, the context words in the order
      of `ContextWords`, matched without regard to case. */
  function NaturalSummary(clientPresent: bool, table: Table, context: string, show: ShowReal): (o: Outcome)
    requires Rectangular(table)
    ensures !clientPresent ==> o == Rule(NoService)
    ensures clientPresent && |table.rows| == 0 ==> o == Rule(NoData)
    ensures clientPresent && |table.rows| > 0 ==>
      (o == ModelSummary <==> "trip_count" !in table.columns || MentionsNone(Lower(context)))
  {
    if !clientPresent then Rule(NoService)
    else if |table.rows| == 0 then Rule(NoData)
    else
      match ColumnIndex(table.columns, "trip_count")
      case None => ModelSummary
      case Some(countCol) => TripCountRules(table, countCol, Lower(context), show)
  }

  /** Word `k` is the first of the context words the context mentions. */
  predicate FirstMentioned(context: string, k: nat) {
    && k < |ContextWords|
    && Mentions(context, ContextWords[k])
    && forall j :: 0 <= j < k ==> !Mentions(context, ContextWords[j])
  }

  /** A context that mentions some word has exactly one first word. */
  lemma FirstMentionedUnique(context: string, a: nat, b: nat)
    requires FirstMentioned(context, a) && FirstMentioned(context, b)
    ensures a == b
  {
  }

  /** The rules for a non-empty table with a `trip_count` column, given the
      lower-cased context: the first context word mentioned picks the rule,
      and without one the model is asked. */
  function TripCountRules(table: Table, countCol: nat, context: string, show: ShowReal): (o: Outcome)
    requires Rectangular(table) && |table.rows| > 0 && countCol < |table.columns|
    ensures o == ModelSummary <==> MentionsNone(context)
    ensures FirstMentioned(context, 0) ==> o == Rule(DropoffSentence(CellText(TopLocation(table), show)))
    ensures FirstMentioned(context, 1) ==> o == PeakRule(table, countCol, show)
    ensures FirstMentioned(context, 2) ==> o == Rule(TripSentence)
    ensures FirstMentioned(context, 3) ==> o == AgeRule(table, show)
    ensures FirstMentioned(context, 4) ==> o == GroupRule(table, show)
  {
    if Mentions(context, "dropoff") then
      assert ContextWords[0] == "dropoff";
      Rule(DropoffSentence(CellText(TopLocation(table), show)))
    else if Mentions(context, "peak") then
      assert ContextWords[0] == "dropoff" && ContextWords[1] == "peak";
      PeakRule(table, countCol, show)
    else if Mentions(context, "trip") then
      assert ContextWords[0] == "dropoff" && ContextWords[1] == "peak" && ContextWords[2] == "trip";
      Rule(TripSentence)
    else if Mentions(context, "age") then
      assert ContextWords[0] == "dropoff" && ContextWords[1] == "peak" && ContextWords[2] == "trip";
      assert ContextWords[3] == "age";
      AgeRule(table, show)
    else if Mentions(context, "group") then
      assert ContextWords[0] == "dropoff" && ContextWords[1] == "peak" && ContextWords[2] == "trip";
      assert ContextWords[3] == "age" && ContextWords[4] == "group";
      GroupRule(table, show)
    else
      ModelSummary
  }

  /** The first row's `dropoff_simple` cell, or its first cell when the
      table has no such column. */
  function TopLocation(table: Table): (c: Cell)
    requires Rectangular(table) && |table.rows| > 0 && |table.columns| > 0
    ensures exists j :: 0 <= j < |table.columns| && c == table.rows[0][j] && (table.columns[j] == "dropoff_simple" || ("dropoff_simple" !in table.columns && j == 0))
  {
    match ColumnIndex(table.columns, "dropoff_simple")
    case Some(j) => table.rows[0][j]
    case None => table.rows[0][0]
  }

  function DropoffSentence(place: string): string {
    "Looks like most riders head to **" + place + "** and other popular spots. Here are the top destinations:"
  }

  function PeakSentence(time: string): string {
    "Large groups ride most around **" + time + "** and other peak hours. Here's the hourly breakdown:"
  }

  const TripSentence := "Found quite a few trips to this location! Here's the trend over time:"

  function AgeSentence(band: string): string {
    "**" + band + "** is the most common age group here. Here's the full breakdown:"
  }

  function GroupSentence(day: string): string {
    "**" + day + "** has the largest average group sizes. Here's the breakdown by day:"
  }

  /** Every cell of column `col` is a number. */
  predicate Numeric(table: Table, col: nat)
    requires Rectangular(table) && col < |table.columns|
  {
    forall i :: 0 <= i < |table.rows| ==> table.rows[i][col].IsNumber()
  }

  /** Row `i` is where `idxmax` of column `col` lands: the column is
      numeric, no row holds more, and no earlier row holds as much. */
  predicate MaxRow(table: Table, col: nat, i: nat)
    requires Rectangular(table) && col < |table.columns|
  {
    && i < |table.rows|
    && Numeric(table, col)
    && (forall j :: 0 <= j < |table.rows| ==> table.rows[j][col].Number() <= table.rows[i][col].Number())
    && (forall j :: 0 <= j < i ==> table.rows[j][col].Number() < table.rows[i][col].Number())
  }

  /** `idxmax` names a single row. */
  lemma MaxRowUnique(table: Table, col: nat, a: nat, b: nat)
    requires Rectangular(table) && col < |table.columns|
    requires MaxRow(table, col, a) && MaxRow(table, col, b)
    ensures a == b
  {
    var va, vb := table.rows[a][col].Number(), table.rows[b][col].Number();
    assert va == vb;
  }

  /** The first row with the largest value of a numeric column. */
  function MaxRowOf(table: Table, col: nat): (i: nat)
    requires Rectangular(table) && |table.rows| > 0 && col < |table.columns|
    requires Numeric(table, col)
    ensures MaxRow(table, col, i)
  {
    var vs := NumberColumn(table.rows, col).value;
    FirstMax(vs)
  }

  /** How the summary writes the hour in a cell. */
  function HourText(c: Cell, show: ShowReal): string
    requires c.IsNumber()
  {
    if c.IntCell? then FormatHour(c.n) else FormatRealHour(c.r, show)
  }

  /** The hour cell of the row where `idxmax` of the counts lands is text. */
  ghost predicate PeakHourIsText(table: Table, countCol: nat)
    requires Rectangular(table) && countCol < |table.columns|
  {
    && "hour" in table.columns
    && var h := ColumnIndex(table.columns, "hour").value;
    exists i :: 0 <= i < |table.rows| && MaxRow(table, countCol, i) && !table.rows[i][h].IsNumber()
  }

  /** `text` names the hour of the row where `idxmax` of the counts lands. */
  ghost predicate PeakAnswer(table: Table, countCol: nat, text: string, show: ShowReal)
    requires Rectangular(table) && countCol < |table.columns|
  {
    && "hour" in table.columns
    && var h := ColumnIndex(table.columns, "hour").value;
    exists i :: 0 <= i < |table.rows| && MaxRow(table, countCol, i) && table.rows[i][h].IsNumber() &&
      text == PeakSentence(HourText(table.rows[i][h], show))
  }

  /** The "peak" sentence: the hour of the first row with the most trips.
      It raises when the counts are not all numbers, when there is no
      `hour` column, and when that row's hour is text; otherwise it answers
      with that row's hour. */
  function PeakRule(table: Table, countCol: nat, show: ShowReal): (o: Outcome)
    requires Rectangular(table) && |table.rows| > 0 && countCol < |table.columns|
    ensures o.Rule? || o.Raises?
    ensures !Numeric(table, countCol) ==> o == Raises(NotNumeric("trip_count"))
    ensures Numeric(table, countCol) && "hour" !in table.columns ==> o == Raises(MissingColumn("hour"))
    ensures o.Raises? <==> !Numeric(table, countCol) || "hour" !in table.columns || PeakHourIsText(table, countCol)
    ensures o.Rule? ==> PeakAnswer(table, countCol, o.text, show)
  {
    if !Numeric(table, countCol) then Raises(NotNumeric("trip_count"))
    else
      var i := MaxRowOf(table, countCol);
      match ColumnIndex(table.columns, "hour")
      case None => Raises(MissingColumn("hour"))
      case Some(h) =>
        assert PeakHourIsText(table, countCol) <==> !table.rows[i][h].IsNumber() by {
          forall k | 0 <= k < |table.rows| && MaxRow(table, countCol, k) ensures k == i {
            MaxRowUnique(table, countCol, k, i);
          }
        }
        if table.rows[i][h].IsNumber() then Rule(PeakSentence(HourText(table.rows[i][h], show)))
        else Raises(NotNumeric("hour"))
  }

  /** Column `j` is the first one labelled `age_group`. */
  predicate AgeCell(table: Table, j: int) {
    0 <= j < |table.columns| && table.columns[j] == "age_group" && "age_group" !in table.columns[..j]
  }

  /** The "age" sentence: the first row's `age_group`; it raises when there
      is no such column. */
  function AgeRule(table: Table, show: ShowReal): (o: Outcome)
    requires Rectangular(table) && |table.rows| > 0
    ensures o.Raises? <==> "age_group" !in table.columns
    ensures o.Raises? ==> o == Raises(MissingColumn("age_group"))
    ensures o.Rule? ==> exists j :: AgeCell(table, j) && o.text == AgeSentence(CellText(table.rows[0][j], show))
  {
    match ColumnIndex(table.columns, "age_group")
    case None => Raises(MissingColumn("age_group"))
    case Some(c) => Rule(AgeSentence(CellText(table.rows[0][c], show)))
  }

  /** `text` names the `day_of_week` of the row where `idxmax` of `mean`
      lands. */
  ghost predicate GroupAnswer(table: Table, text: string, show: ShowReal)
    requires Rectangular(table)
  {
    && "mean" in table.columns && "day_of_week" in table.columns
    && var m, d := ColumnIndex(table.columns, "mean").value, ColumnIndex(table.columns, "day_of_week").value;
    exists i :: 0 <= i < |table.rows| && MaxRow(table, m, i) && text == GroupSentence(CellText(table.rows[i][d], show))
  }

  /** The "group" sentence: the day of the first row with the largest
      `mean`. It raises when there is no `mean` column, when the means are
      not all numbers, and when there is no `day_of_week` column. */
  function GroupRule(table: Table, show: ShowReal): (o: Outcome)
    requires Rectangular(table) && |table.rows| > 0
    ensures o.Rule? || o.Raises?
    ensures "mean" !in table.columns ==> o == Raises(MissingColumn("mean"))
    ensures o.Raises? <==>
      || "mean" !in table.columns
      || !Numeric(table, ColumnIndex(table.columns, "mean").value)
      || "day_of_week" !in table.columns
    ensures o.Rule? ==> GroupAnswer(table, o.text, show)
  {
    match ColumnIndex(table.columns, "mean")
    case None => Raises(MissingColumn("mean"))
    case Some(m) =>
      if !Numeric(table, m) then Raises(NotNumeric("mean"))
      else
        var i := MaxRowOf(table, m);
        match ColumnIndex(table.columns, "day_of_week")
        case None => Raises(MissingColumn("day_of_week"))
        case Some(d) => Rule(GroupSentence(CellText(table.rows[i][d], show)))
  }

  /** The context is matched without regard to case. */
  lemma SummaryIgnoresCase(clientPresent: bool, table: Table, context: string, show: ShowReal)
    requires Rectangular(table)
    ensures NaturalSummary(clientPresent, table, Lower(context), show) == NaturalSummary(clientPresent, table, context, show)
  {
    LowerIdempotent(context);
  }
}

=== FILE: text.dfy ===
/** String operations the router and the query engine rely on: Python's
    `str.lower` (on ASCII letters), `str.strip`, the `in` substring test,
    `str.split(",")[0]`, `str.replace` of one character, and `str(n)` for
    integers together with its inverse. */
module Text {

  /** Python's `str.isspace` for one character: the ASCII controls TAB..CR,
      the separators 0x1C..0x1F, SPACE, NEL, NBSP and the Unicode spaces. */
  predicate IsSpace(c: char) {
    var n := c as int;
    || 9 <= n <= 13
    || 28 <= n <= 32
    || n == 0x85 || n == 0xA0 || n == 0x1680
    || 0x2000 <= n <= 0x200A
    || n == 0x2028 || n == 0x2029 || n == 0x202F || n == 0x205F || n == 0x3000
  }

  predicate AllSpace(s: string) {
    forall i :: 0 <= i < |s| ==> IsSpace(s[i])
  }

  predicate IsAsciiUpper(c: char) {
    'A' <= c <= 'Z'
  }

  /** Lower-cases one ASCII letter and leaves every other character alone. */
  function LowerChar(c: char): (d: char)
    ensures !IsAsciiUpper(d)
    ensures IsAsciiUpper(c) ==> d as int == c as int + 32
    ensures !IsAsciiUpper(c) ==> d == c
  {
    if IsAsciiUpper(c) then (c as int + 32) as char else c
  }

  function Lower(s: string): (r: string)
    ensures |r| == |s|
    ensures forall i :: 0 <= i < |s| ==> r[i] == LowerChar(s[i])
  {
    if |s| == 0 then [] else [LowerChar(s[0])] + Lower(s[1..])
  }

  lemma LowerIdempotent(s: string)
    ensures Lower(Lower(s)) == Lower(s)
  {
    assert forall i :: 0 <= i < |s| ==> Lower(Lower(s))[i] == Lower(s)[i];
  }

  lemma LowerAppend(a: string, b: string)
    ensures Lower(a + b) == Lower(a) + Lower(b)
  {
    assert forall i :: 0 <= i < |a + b| ==> Lower(a + b)[i] == (Lower(a) + Lower(b))[i];
  }

  /** White space has no case, so lower-casing leaves it in place. */
  lemma LowerKeepsSpace(s: string)
    ensures AllSpace(s) ==> Lower(s) == s
    ensures AllSpace(Lower(s)) ==> AllSpace(s)
  {
    if AllSpace(s) {
      assert forall i :: 0 <= i < |s| ==> Lower(s)[i] == s[i];
    }
  }

  /** Removes leading white space. */
  function TrimStart(s: string): (r: string)
    ensures |r| <= |s| && r == s[|s| - |r|..]
    ensures AllSpace(s[..|s| - |r|])
    ensures r == [] || !IsSpace(r[0])
    decreases |s|
  {
    if |s| > 0 && IsSpace(s[0]) then
      var r := TrimStart(s[1..]);
      assert s[..|s| - |r|] == [s[0]] + s[1..][..|s| - 1 - |r|];
      r
    else
      s
  }

  /** Removes trailing white space. */
  function TrimEnd(s: string): (r: string)
    ensures |r| <= |s| && r == s[..|r|]
    ensures AllSpace(s[|r|..])
    ensures r == [] || !IsSpace(r[|r| - 1])
    decreases |s|
  {
    if |s| > 0 && IsSpace(s[|s| - 1]) then
      var r := TrimEnd(s[..|s| - 1]);
      assert s[|r|..] == s[..|s| - 1][|r|..] + [s[|s| - 1]];
      r
    else
      s
  }

  /** Python's `s.strip()`: leading and trailing white space removed; the
      result neither starts nor ends with white space (`StripFrame` says what
      was cut off). */
  function Strip(s: string): (r: string)
    ensures |r| <= |s|
    ensures r == [] || (!IsSpace(r[0]) && !IsSpace(r[|r| - 1]))
  {
    var t := TrimStart(s);
    var r := TrimEnd(t);
    assert r == [] || r[0] == t[0];
    r
  }

  /** Number of leading white-space characters. */
  function Lead(s: string): nat {
    |s| - |TrimStart(s)|
  }

  /** `Strip(s)` is what is left of `s` between two runs of white space. */
  lemma StripFrame(s: string)
    ensures Lead(s) + |Strip(s)| <= |s|
    ensures s == s[..Lead(s)] + Strip(s) + s[Lead(s) + |Strip(s)|..]
    ensures AllSpace(s[..Lead(s)]) && AllSpace(s[Lead(s) + |Strip(s)|..])
  {
    var t := TrimStart(s);
    var r := TrimEnd(t);
    assert Strip(s) == r && Lead(s) == |s| - |t|;
    Framed(s, t, r);
  }

  lemma Framed(s: string, t: string, r: string)
    requires |r| <= |t| <= |s|
    requires t == s[|s| - |t|..] && AllSpace(s[..|s| - |t|])
    requires r == t[..|r|] && AllSpace(t[|r|..])
    ensures var lead := |s| - |t|;
      && s == s[..lead] + r + s[lead + |r|..]
      && AllSpace(s[..lead]) && AllSpace(s[lead + |r|..])
  {
    var lead := |s| - |t|;
    assert t[|r|..] == s[lead + |r|..];
    assert r == s[lead..lead + |r|];
    assert s == s[..lead] + s[lead..lead + |r|] + s[lead + |r|..];
  }

  lemma {:induction false} TrimStartSpaces(w: string, x: string)
    requires AllSpace(w)
    ensures TrimStart(w + x) == TrimStart(x)
    decreases |w|
  {
    if |w| > 0 {
      assert (w + x)[1..] == w[1..] + x;
      TrimStartSpaces(w[1..], x);
    } else {
      assert w + x == x;
    }
  }

  lemma {:induction false} TrimEndSpaces(x: string, w: string)
    requires AllSpace(w)
    ensures TrimEnd(x + w) == TrimEnd(x)
    decreases |w|
  {
    if |w| > 0 {
      assert (x + w)[..|x + w| - 1] == x + w[..|w| - 1];
      TrimEndSpaces(x, w[..|w| - 1]);
    } else {
      assert x + w == x;
    }
  }

  /** `strip` has exactly one answer: whatever is framed by white space and
      has no white space at either end. */
  lemma StripUnique(w1: string, m: string, w2: string)
    requires AllSpace(w1) && AllSpace(w2)
    requires m == [] || (!IsSpace(m[0]) && !IsSpace(m[|m| - 1]))
    ensures Strip(w1 + m + w2) == m
  {
    var s, x := w1 + m + w2, m + w2;
    assert s == w1 + x;
    assert TrimStart(s) == TrimStart(x) by { TrimStartSpaces(w1, x); }
    if m == [] {
      assert TrimStart(x) == [] by {
        assert x == w2 + [];
        TrimStartSpaces(w2, []);
      }
    } else {
      assert TrimStart(x) == x by { assert x[0] == m[0]; }
      assert TrimEnd(x) == m by { TrimEndSpaces(m, w2); }
    }
    assert Strip(s) == TrimEnd(TrimStart(s));
  }

  lemma StripIdempotent(s: string)
    ensures Strip(Strip(s)) == Strip(s)
  {
    StripOfStripped(Strip(s));
  }

  /** A string without outer white space is its own `strip`. */
  lemma StripOfStripped(m: string)
    requires m == [] || (!IsSpace(m[0]) && !IsSpace(m[|m| - 1]))
    ensures Strip(m) == m
  {
    var none: string := [];
    assert none + m + none == m;
    StripUnique(none, m, none);
  }

  lemma AllSpaceConcat(a: string, b: string)
    requires AllSpace(a) && AllSpace(b)
    ensures AllSpace(a + b)
  {
  }

  lemma Regroup(a: string, b: string, c: string, d: string, e: string)
    ensures a + (b + c + d) + e == (a + b) + c + (d + e)
  {
  }

  /** Outer white space never matters to `strip`. */
  lemma StripPadded(w1: string, s: string, w2: string)
    requires AllSpace(w1) && AllSpace(w2)
    ensures Strip(w1 + s + w2) == Strip(s)
  {
    var m := Strip(s);
    StripFrame(s);
    var u1, u2 := s[..Lead(s)], s[Lead(s) + |m|..];
    AllSpaceConcat(w1, u1);
    AllSpaceConcat(u2, w2);
    Regroup(w1, u1, m, u2, w2);
    StripUnique(w1 + u1, m, u2 + w2);
  }

  /** Lower-casing neither creates nor removes white space at the ends. */
  lemma LowerKeepsEnds(m: string)
    requires m == [] || (!IsSpace(m[0]) && !IsSpace(m[|m| - 1]))
    ensures var l := Lower(m); l == [] || (!IsSpace(l[0]) && !IsSpace(l[|l| - 1]))
  {
  }

  /** Lower-casing and stripping commute, so `q.lower().strip()` and
      `q.strip().lower()` agree. */
  lemma LowerStripCommute(s: string)
    ensures Strip(Lower(s)) == Lower(Strip(s))
  {
    StripFrame(s);
    StripLowerFramed(s[..Lead(s)], Strip(s), s[Lead(s) + |Strip(s)|..]);
  }

  lemma StripLowerFramed(w1: string, m: string, w2: string)
    requires AllSpace(w1) && AllSpace(w2)
    requires m == [] || (!IsSpace(m[0]) && !IsSpace(m[|m| - 1]))
    ensures Strip(Lower(w1 + m + w2)) == Lower(m)
  {
    var lm := Lower(m);
    assert Lower(w1 + m + w2) == w1 + lm + w2 by {
      LowerAppend(w1 + m, w2);
      LowerAppend(w1, m);
      LowerKeepsSpace(w1);
      LowerKeepsSpace(w2);
    }
    assert lm == [] || (!IsSpace(lm[0]) && !IsSpace(lm[|lm| - 1])) by {
      LowerKeepsEnds(m);
    }
    StripUnique(w1, lm, w2);
  }

  predicate IsPrefix(p: string, s: string) {
    |p| <= |s| && s[..|p|] == p
  }

  /** Python's `sub in s`. */
  predicate Contains(s: string, sub: string) {
    exists i :: 0 <= i <= |s| - |sub| && IsPrefix(sub, s[i..])
  }

  lemma ContainsEmpty(s: string)
    ensures Contains(s, "")
  {
    assert IsPrefix("", s[0..]);
  }

  /** Python's `s.split(c)[0]`: the text before the first `c`, or all of `s`. */
  function BeforeFirst(s: string, c: char): (r: string)
    ensures c !in r
    ensures IsPrefix(r, s)
    ensures |r| < |s| ==> s[|r|] == c
  {
    if |s| == 0 || s[0] == c then [] else [s[0]] + BeforeFirst(s[1..], c)
  }

  /** Python's `s.replace(a, b)` for single characters. */
  function ReplaceChar(s: string, a: char, b: char): (r: string)
    ensures |r| == |s|
    ensures a != b ==> a !in r
    ensures forall i :: 0 <= i < |s| && s[i] != a ==> r[i] == s[i]
  {
    if |s| == 0 then [] else [if s[0] == a then b else s[0]] + ReplaceChar(s[1..], a, b)
  }

  predicate IsDigit(c: char) {
    '0' <= c <= '9'
  }

  predicate AllDigits(s: string) {
    forall i :: 0 <= i < |s| ==> IsDigit(s[i])
  }

  function DigitChar(d: nat): (c: char)
    requires d < 10
    ensures IsDigit(c)
  {
    ('0' as int + d) as char
  }

  function DigitValue(c: char): (d: nat)
    requires IsDigit(c)
    ensures d < 10
  {
    c as int - '0' as int
  }

  /** Reads a decimal numeral; the inverse of `NatToString`. */
  function ParseDigits(s: string): nat
    requires AllDigits(s)
  {
    if |s| == 0 then 0 else ParseDigits(s[..|s| - 1]) * 10 + DigitValue(s[|s| - 1])
  }

  /** A numeral as Python writes it: at least one digit, and no leading
      zero unless it is "0". */
  predicate Canonical(s: string) {
    |s| >= 1 && AllDigits(s) && (|s| == 1 || s[0] != '0')
  }

  /** Python's `str(n)` for a non-negative integer: a canonical numeral that
      reads back as `n`. */
  function NatToString(n: nat): (s: string)
    ensures Canonical(s)
    ensures ParseDigits(s) == n
  {
    if n < 10 then [DigitChar(n)]
    else
      var prefix := NatToString(n / 10);
      var s := prefix + [DigitChar(n % 10)];
      assert s[..|s| - 1] == prefix;
      s
  }

  lemma NatToStringInjective(a: nat, b: nat)
    ensures NatToString(a) == NatToString(b) <==> a == b
  {
  }

  /** A numeral that does not start with '0' is worth at least one. */
  lemma {:induction false} LeadingDigitPositive(s: string)
    requires |s| >= 1 && AllDigits(s) && s[0] != '0'
    ensures ParseDigits(s) >= 1
  {
    if |s| > 1 {
      var p := s[..|s| - 1];
      assert p[0] == s[0];
      LeadingDigitPositive(p);
    }
  }

  /** Every canonical numeral is the one `str` writes for its value, so no
      two canonical numerals have the same value. */
  lemma {:induction false} CanonicalIsNatToString(s: string)
    requires Canonical(s)
    ensures NatToString(ParseDigits(s)) == s
  {
    if |s| > 1 {
      var p, d := s[..|s| - 1], DigitValue(s[|s| - 1]);
      assert p[0] == s[0];
      LeadingDigitPositive(p);
      CanonicalIsNatToString(p);
      var n := ParseDigits(s);
      assert n == ParseDigits(p) * 10 + d;
      assert n / 10 == ParseDigits(p) && n % 10 == d;
      assert DigitChar(d) == s[|s| - 1];
      assert s == p + [s[|s| - 1]];
    } else {
      assert DigitChar(DigitValue(s[0])) == s[0];
    }
  }

  lemma CanonicalUnique(a: string, b: string)
    requires Canonical(a) && Canonical(b) && ParseDigits(a) == ParseDigits(b)
    ensures a == b
  {
    CanonicalIsNatToString(a);
    CanonicalIsNatToString(b);
  }

  /** Python's `str(i)` for any integer. */
  function IntToString(i: int): (s: string)
    ensures i >= 0 ==> Canonical(s) && ParseDigits(s) == i
    ensures i < 0 ==> |s| >= 2 && s[0] == '-' && Canonical(s[1..]) && ParseDigits(s[1..]) == -i
  {
    if i < 0 then "-" + NatToString(-i) else NatToString(i)
  }
}

=== FILE: trips.dfy ===
/** One row of the merged rider table and the columns the query engine
    derives from it while loading: the age bucket, the weekend flag and the
    simplified drop-off name. Reading the workbook, the merges and parsing
    timestamps happen before this model starts; a row carries their results.
    The merge with the trip sheet is a left join, so a rider whose trip is
    not in that sheet keeps the row with the trip's columns missing (NaN or
    NaT): such a row has no weekday, hour, date or party size, and its
    address reads "nan". */
module Trips {
  import opened Options
  import opened Text

  /** A rider row: the trip it belongs to, the rider's age (`None` where the
      demographics sheet has none), the weekday name, hour and calendar day
      of the trip and the party size (each `None` where the trip sheet has
      no such trip), and the drop-off address as `astype(str)` writes it. */
  datatype Trip = Trip(
    tripId: int,
    age: Option<real>,
    dayOfWeek: Option<string>,
    hour: Option<int>,
    date: Option<int>,
    totalPassengers: Option<int>,
    dropoffAddress: string)

  /** Python's `int(x)` on a float: rounds toward zero. */
  function Truncate(x: real): (i: int)
    ensures x >= 0.0 ==> i as real <= x < i as real + 1.0
    ensures x < 0.0 ==> i as real - 1.0 < x <= i as real
  {
    if x >= 0.0 then x.Floor else -((-x).Floor)
  }

  const AgeBuckets: seq<string> := ["Unknown", "<18", "18–24", "25–34", "35–44", "45–54", "55+"]

  /** `age_bucket`: a missing age is "Unknown"; otherwise the age truncated
      to an integer falls into the first band whose upper limit it does not
      pass. */
  function AgeBucket(age: Option<real>): (b: string)
    ensures b in AgeBuckets
    ensures b == "Unknown" <==> age.None?
  {
    match age
    case None => "Unknown"
    case Some(a) =>
      var n := Truncate(a);
      if n < 18 then "<18"
      else if n <= 24 then "18–24"
      else if n <= 34 then "25–34"
      else if n <= 44 then "35–44"
      else if n <= 54 then "45–54"
      else "55+"
  }

  /** The bands, stated on the age itself: truncation puts every age in
      `[18, 25)` into "18–24", and so on, so the six bands split the real
      line into consecutive half-open intervals. */
  lemma AgeBucketRanges(a: real)
    ensures AgeBucket(Some(a)) == "<18" <==> a < 18.0
    ensures AgeBucket(Some(a)) == "18–24" <==> 18.0 <= a < 25.0
    ensures AgeBucket(Some(a)) == "25–34" <==> 25.0 <= a < 35.0
    ensures AgeBucket(Some(a)) == "35–44" <==> 35.0 <= a < 45.0
    ensures AgeBucket(Some(a)) == "45–54" <==> 45.0 <= a < 55.0
    ensures AgeBucket(Some(a)) == "55+" <==> 55.0 <= a
  {
    var n := Truncate(a);
    if a >= 0.0 {
      assert n < 18 <==> a < 18.0;
      assert n <= 24 <==> a < 25.0;
      assert n <= 34 <==> a < 35.0;
      assert n <= 44 <==> a < 45.0;
      assert n <= 54 <==> a < 55.0;
    }
  }

  /** The names `dt.day_name()` produces, Monday first. */
  const DayNames: seq<string> := ["Monday", "Tuesday", "Wednesday", "Thursday", "Friday", "Saturday", "Sunday"]

  /** `day_of_week.isin(["Saturday", "Sunday"])`: the flag is set exactly
      for the last two day names; a missing day is not a weekend day. */
  function IsWeekend(day: Option<string>): (w: bool)
    ensures w <==> day.Some? && day.value in DayNames[5..]
  {
    assert DayNames[5..] == ["Saturday", "Sunday"];
    day == Some("Saturday") || day == Some("Sunday")
  }

  /** Of the seven day names exactly the last two are weekend days. */
  lemma WeekendDays()
    ensures forall i :: 0 <= i < |DayNames| ==> (IsWeekend(Some(DayNames[i])) <==> i >= 5)
  {
    assert DayNames[0] != "Saturday" && DayNames[0] != "Sunday";
    assert DayNames[1] != "Saturday" && DayNames[1] != "Sunday";
    assert DayNames[2] != "Saturday" && DayNames[2] != "Sunday";
    assert DayNames[3] != "Saturday" && DayNames[3] != "Sunday";
    assert DayNames[4] != "Saturday" && DayNames[4] != "Sunday";
  }

  /** `x.split(",")[0].strip()`: the address up to its first comma, without
      outer white space. The result holds no comma and has no white space
      at either end. */
  function DropoffSimple(address: string): (d: string)
    ensures ',' !in d
    ensures d == [] || (!IsSpace(d[0]) && !IsSpace(d[|d| - 1]))
  {
    var head := BeforeFirst(address, ',');
    StripKeepsOut(head, ',');
    Strip(head)
  }

  /** Stripping only removes characters. */
  lemma StripKeepsOut(s: string, c: char)
    requires c !in s
    ensures c !in Strip(s)
  {
    StripFrame(s);
    var m := Strip(s);
    var lead := Lead(s);
    assert forall i :: 0 <= i < |m| ==> m[i] == s[lead + i];
  }

  lemma {:induction false} BeforeFirstOf(b: string, tail: string, c: char)
    requires c !in b && (tail == [] || tail[0] == c)
    ensures BeforeFirst(b + tail, c) == b
  {
    if |b| > 0 {
      assert (b + tail)[1..] == b[1..] + tail;
      BeforeFirstOf(b[1..], tail, c);
    } else {
      assert b + tail == tail;
    }
  }

  /** Splitting an address at its first comma: whatever follows the comma
      is ignored, and the part before it is stripped. */
  lemma DropoffSimpleSplit(b: string, tail: string)
    requires ',' !in b && (tail == [] || tail[0] == ',')
    ensures DropoffSimple(b + tail) == Strip(b)
  {
    BeforeFirstOf(b, tail, ',');
  }

  /** A simplified name simplifies to itself. */
  lemma DropoffSimpleIdempotent(address: string)
    ensures DropoffSimple(DropoffSimple(address)) == DropoffSimple(address)
  {
    var d := DropoffSimple(address);
    assert d + [] == d;
    DropoffSimpleSplit(d, []);
    StripIdempotent(BeforeFirst(address, ','));
  }

  function AgeGroupOf(t: Trip): string {
    AgeBucket(t.age)
  }

  function DropoffOf(t: Trip): string {
    DropoffSimple(t.dropoffAddress)
  }

  /** The hour a row is grouped under, missing for a row without a trip. */
  function HourOf(t: Trip): Option<int> {
    t.hour
  }

  /** The calendar day a row is grouped under, missing for a row without a
      trip. */
  function DateOf(t: Trip): Option<int> {
    t.date
  }
}
